=== FILE: README.md ===
# Bakery storefront: the pure rules of the React front end

This project models, in Dafny, the deterministic rules inside a React bakery storefront:

- the image URL normaliser and the ordering-hours window;
- the REST request helpers, covering query cleaning, endpoints, header merging and response classification;
- the product-fetching hooks;
- the home page's carousels, cart controls and star rating;
- the admin product editor, covering search, features, specifications, edit form and save;
- the admin order console, covering sorting, load errors, status change, search and filter, and counts.

The browser, React, `fetch` and Firestore are abstracted away. Their results are inputs to pure functions:

- a request's outcome is a `Result`;
- the clock is a minute of the day or an instant;
- the viewport test is the boolean `mobile`;
- `PUBLIC_URL` is a string parameter. The image utilities default it to "" with `|| ''`; the home page interpolates it as is, which is safe because the build always defines it.

Modules:

- `Wrappers`: `Option` and `Result`.
- `Strings`: prefix and substring tests, `split(sep).pop()`, ECMAScript `trim`, ASCII lower-casing, decimal rendering.
- `Seqs`: `filter` and its counting lemmas.
- `JsNumbers`: truncation toward zero.
- `Catalog`: the product record and the response shapes.
- `ImageUtils`, `TimeUtils`, `Api`, `ProductHooks`, `Home`, `ProductManagement` and `AdminOrders`: one module per source file.

Some behaviour of the code, as written, is worth knowing:

- **Idempotence of `getImageUrl`.** It is idempotent only when `PUBLIC_URL` is non-empty (`GetImageUrlIdempotent`). When the base path is empty, "media/x.png" becomes "/media/x.png" and then "/x.png" (`GetImageUrlNotIdempotentWithoutBase`).
- **`split(sep).pop()`.** It splits at non-overlapping occurrences from the left. Because "/media/" overlaps itself, "a/media/media/b" gives "media/b" and not "b" (`MediaSplitIsLeftmostGreedy`).
- **Dead branch in `useProducts`.** The third branch of its shape test repeats the first and never fires (`NormalizeStrict`).
- **Permission errors in `fetchOrders`.** The inner handler answers every "permission-denied" error itself. The outer handler's message for that code therefore never appears (`RulesMessageUnreachable`).
- **Failed status write.** The order-details modal shows a new status even when the write fails, so the modal and the list can disagree (`ModalDivergesOnFailedWrite`).

## Model

| member | source | states |
|---|---|---|
| ImageUtils.GetImageUrl | src/utils/imageUtils.js:14-52 | The seven rules in order, first match wins: a missing image gives the fallback logo under the base path; external URLs and URLs already under a non-empty base path are kept; localhost URLs keep what follows the last "/"; media paths keep what `split('/media/').pop()` yields; rooted paths get the base path; anything else gets base path + "/". Every rewritten URL starts with the base path |
| ImageUtils.GetImageUrlIdempotent | src/utils/imageUtils.js:10-52 | With a non-empty public base path, normalising an already normalised URL changes nothing, as the doc comment claims |
| ImageUtils.GetImageUrlNotIdempotentWithoutBase | src/utils/imageUtils.js:10-52 | With an empty base path the claim fails: "media/x.png" normalised twice differs from normalised once |
| ImageUtils.MediaSplitIsLeftmostGreedy | src/utils/imageUtils.js:40-43 | `split('/media/').pop()` on "a/media/media/b" is "media/b", although "/media/" also occurs at position 7: the split is leftmost and non-overlapping, not "after the last occurrence" |
| ImageUtils.FormatProductImage | src/utils/imageUtils.js:59-66 | A missing product is passed through; otherwise only the image field changes, to its normalised form |
| ImageUtils.FormatProductsImages | src/utils/imageUtils.js:73-77 | A non-array body is returned as is; an array keeps its length and order, and each product differs from the input only in its normalised image |
| ImageUtils.FormatProductsImagesIdempotent | src/utils/imageUtils.js:73-77 | With a non-empty base path, formatting a formatted list changes nothing |
| Strings.SplitLast | src/utils/imageUtils.js:33-42 | The last piece of `split(sep)`: a suffix of the input free of the separator, the whole input when the separator is absent, and preceded by an occurrence of the separator otherwise |
| Strings.LastPieceStart | src/utils/imageUtils.js:33-42 | Where the last piece begins: 0 when the separator is absent, otherwise just after an occurrence of the separator, with no occurrence in what follows |
| Strings.SplitLastAtLeftmost | src/utils/imageUtils.js:40-42 | For every input and separator, the last piece is the last piece of the text after the leftmost occurrence; with the absent-separator clause this fixes the piece even for a separator that overlaps itself, such as "/media/" |
| Strings.TrimEmptyIffBlank | src/pages/ProductManagement.js:61 | `trim()` yields "" exactly when the string is all ECMAScript white space |
| TimeUtils.MinuteOfDay | src/utils/timeUtils.js:12-14 | The minute of the day lies in 0..1439 and recovers the hour and minute it was built from |
| TimeUtils.IsOrderingAllowed | src/utils/timeUtils.js:10-22 | On any minute of the day, ordering is allowed exactly during the hours 9 through 21 |
| TimeUtils.NextOrderingTime | src/utils/timeUtils.js:28-48 | "9:00 AM" exactly before opening, "9:00 AM (tomorrow)" exactly from closing on, null exactly while ordering is allowed |
| TimeUtils.OrderingHoursMessage | src/utils/timeUtils.js:54-61 | At one instant: the open message when ordering is allowed, otherwise the closed text followed by a non-null next opening time |
| TimeUtils.WindowIsHalfOpen | src/utils/timeUtils.js:18-21 | 9:00 and 21:59 are inside the window, 8:59 and 22:00 outside |
| TimeUtils.ThreePhases | src/utils/timeUtils.js:21-47 | Every minute of the day is in exactly one phase: before opening, open, after closing; the two next-time texts differ |
| TimeUtils.MessageAgreesWithWindow | src/utils/timeUtils.js:54-61 | The message is the open message if and only if ordering is allowed |
| Api.BaseUrl | src/services/api.js:6 | The configured base URL when set and non-empty, otherwise the local development server |
| Api.CleanParams | src/services/api.js:70-77 | Exactly the entries whose value is not undefined, null or "": every such entry as many times as it occurs, values unchanged, in their original order, and no other entry |
| Api.ProductsEndpoint | src/services/api.js:78-79 | "/products", with "?" and the query string appended only when the query string is non-empty |
| Api.GetAllProducts | src/services/api.js:70-81 | A GET without body of an endpoint under "/products", built from the serialisation of a list that is an order-preserving subsequence of the parameters holding exactly their kept entries with their multiplicities |
| Api.EmptyParamsAreDropped | src/services/api.js:70-81 | Parameters that are all undefined, null or "" give the same request as no parameters |
| Api.ProductEndpoints | src/services/api.js:88-160 | The fixed paths: just-arrived and just-baked are distinct listing queries; get, update and delete share "/products/{id}", which determines the id; reads carry no body; create is POST "/products", update PUT with the body, delete DELETE; search is a body-less GET of "/products/search?q=" + the encoded query, and category a body-less GET of "/products?category=" + the encoded category |
| Api.DefaultHeaders | src/services/api.js:17-25 | JSON content type always; an Authorization header if and only if a non-empty token is stored, and then "Bearer " + token (section 2.1 of RFC 6750); no other header |
| Api.MergeHeaders | src/services/api.js:27-33 | The keys are the defaults' and the caller's; caller headers win key by key; every default the caller does not override survives |
| Api.HeadersWithoutOverrides | src/services/api.js:17-33 | Without caller headers the request declares JSON and carries the bearer token exactly when one is stored |
| Api.StatusMessage | src/services/api.js:43-51 | The status fallback message is never empty |
| Api.Classify | src/services/api.js:38-54 | Non-JSON: text on OK, otherwise an error with the text or the status message. JSON: parsed data on OK, a parse failure propagated; otherwise an error carrying the body's non-empty message, the engine's TypeError text for a `null` body, or the status message for an array, a scalar or a record without message. Only an OK response yields a value |
| Api.FailureMessageNonEmpty | src/services/api.js:38-54 | A failed response whose body was read always raises an error with a non-empty message |
| ProductHooks.ErrorText | src/hooks/useProducts.js:41 | `err.message` when it is non-empty, the fallback otherwise |
| ProductHooks.NormalizeStrict | src/hooks/useProducts.js:28-35 | A bare array as is; an object's `products` array; [] for anything else, the third branch never contributing |
| ProductHooks.NormalizeLoose | src/hooks/useProducts.js:118 | Fails exactly on a null body; a truthy non-array `products` is passed through as it came |
| ProductHooks.StrictAndLooseAgree | src/hooks/useProducts.js:28-35 | The two shape rules agree except on a null body (strict gives [], loose an error) and on a non-array `products` |
| ProductHooks.Begin | src/hooks/useProducts.js:20-21 | A fetch starts loading with the error cleared and the products kept |
| ProductHooks.Fail | src/hooks/useProducts.js:39-45 | A failed fetch ends with no products, the error message or fallback, and loading cleared |
| ProductHooks.SettleStrict | src/hooks/useProducts.js:23-45 | `useProducts` ends with loading cleared; there is an error if and only if the request failed; success stores the normalised array, failure [] and the message |
| ProductHooks.SettleLoose | src/hooks/useProducts.js:116-125 | The loose hooks end with loading cleared; there is no error if and only if the request succeeded with a non-null body; success stores the loose shape; failure records the message or the fallback; a `null` body records the engine's message; an error always comes with [] and a non-empty message |
| ProductHooks.UseProductsFetch | src/hooks/useProducts.js:19-46 | One fetch of `useProducts`: a body-less GET under "/products" carrying the filters; loading with no error while in flight; afterwards loading cleared, an error exactly on failure, the normalised array on success, [] with the message or fallback on failure |
| ProductHooks.JustArrivedFetch | src/hooks/useProducts.js:112-126 | One fetch of the just-arrived hook: a body-less GET of "/products?featured=true&type=just-arrived"; loading with no error while in flight; afterwards loading cleared, no error exactly on a non-null success, the loose shape on success, [] with the message or fallback on failure, [] with the engine's message on a `null` body |
| ProductHooks.JustBakedFetch | src/hooks/useProducts.js:149-163 | One fetch of the just-baked hook: a body-less GET of "/products?featured=true&type=just-baked"; loading with no error while in flight; afterwards loading cleared, no error exactly on a non-null success, the loose shape on success, [] with the message or fallback on failure, [] with the engine's message on a `null` body |
| ProductHooks.FetchForgetsEarlierState | src/hooks/useProducts.js:112-126 | The settled state depends only on the outcome: no earlier error survives, loading is always cleared, a failure leaves [] and a non-empty message |
| ProductHooks.StartSearch | src/hooks/useProducts.js:187-199 | A missing or blank query makes no request, empties the list and clears loading; any other query begins a fetch of the search endpoint |
| ProductHooks.SettleSearch | src/hooks/useProducts.js:197-206 | The search ends with loading cleared; no error if and only if it succeeded with a non-null body, storing the loose shape; on failure [] with the message or "Failed to search products"; on a `null` body [] with the engine's message |
| ProductHooks.SearchSettlesLikeOtherHooks | src/hooks/useProducts.js:197-206 | A search settles exactly as the just-arrived hook does on the same outcome, except that a failure without a message gets the search's own, different fallback text |
| ProductHooks.StartProduct | src/hooks/useProducts.js:70-78 | A falsy id makes no request, clears loading and leaves product and error as they were; otherwise the product is requested by id |
| ProductHooks.SettleProduct | src/hooks/useProducts.js:79-88 | Loading cleared; there is an error if and only if the request failed; success stores the body, failure resets the product to null |
| Home.PerView | src/pages/index.js:135 | A window holds 3 or 4 cards |
| Home.Slice | src/pages/index.js:73-86 | `slice` within bounds is the sub-sequence; an end past the list is clamped to its length; a start past the end, or an end before the start, gives [] |
| Home.VisibleWindow | src/pages/index.js:134-150 | A list that fits is shown whole; otherwise exactly one window's worth of cards is shown |
| Home.WindowIsRotation | src/pages/index.js:141-149 | Over a list that does not fit, card k of the window is card (index+k) mod N of the list; an index past the end shows the first window |
| Home.WindowWrapsAround | src/pages/index.js:141-149 | Ten products on a wide screen from index 9 show cards 9, 0 and 1 |
| Home.NextIndex | src/pages/index.js:209-225 | Next leaves the index alone when the list fits, and otherwise yields an index below N |
| Home.ShowNextMoves | src/pages/index.js:496 | For a valid index, the Next button (also at index.js:628) is shown exactly when loading has finished without error and pressing Next would move the window; a list that fits has no button and Next leaves its index alone |
| Home.NextKeepsIndexValid | src/pages/index.js:209-216 | Next keeps a valid index valid, and always moves the window when the list does not fit |
| Home.NextWindowContinues | src/pages/index.js:141-149 | The window after Next starts exactly where the current one ended, going round the list |
| Home.ResetIndex | src/pages/index.js:101-132 | The index becomes 0 when the list is empty, fits in one window, or is shorter than the index; otherwise it is kept |
| Home.ResetSettles | src/pages/index.js:101-132 | The reset effect reaches its fixpoint in one step, and its fixpoints are exactly the valid indices |
| Home.HomeImage | src/pages/index.js:69-71 | Absolute and rooted images are kept; any other image gets the public base path glued on with no separator |
| Home.LoadCarousel | src/pages/index.js:64-88 | An empty API result keeps the previous list; otherwise the first `limit` products with their images fixed and nothing else changed |
| Home.LoadJustArrived | src/pages/index.js:64-75 | The just-arrived load: an empty result keeps the previous list; otherwise at most six products, the first ones of the result, with only their images fixed |
| Home.LoadJustBaked | src/pages/index.js:77-88 | The just-baked load: an empty result keeps the previous list; otherwise at most eight products, the first ones of the result, with only their images fixed |
| Home.LoadedImagesRooted | src/pages/index.js:64-88 | With a rooted base path, every loaded image is absolute or rooted, and loading the loaded list again changes nothing |
| Home.ProductQuantity | src/pages/index.js:233-236 | The quantity of the first cart entry with the id, or 0 when no entry has it |
| Home.QuantityToSend | src/pages/index.js:239-246 | A positive request is sent as is, anything else as exactly 0 |
| Home.ChooseControl | src/pages/index.js:559-596 | Sold Out if and only if `inStock` is explicitly false; the selector if and only if the product is in stock, in the cart and has a positive quantity; Add to Cart otherwise |
| Home.SelectorButtons | src/pages/index.js:566-585 | The selector's buttons send quantity ± 1 unclamped and never a negative quantity; from one the minus button sends 0; a sold-out product never shows the selector |
| Home.RenderStars | src/pages/index.js:171-192 | Five stars: star i is full if and only if i < floor(rating), half if and only if i = floor(rating) and `rating % 1 >= 0.5` |
| Home.FullCount | src/pages/index.js:173-177 | The number of full stars lies in 0..5 |
| Home.StarRowCounts | src/pages/index.js:171-192 | The full stars come first and number floor(rating) clamped to 0..5; there is at most one half star, present if and only if 0 <= floor(rating) < 5 with a fractional part of at least one half; a negative rating has none |
| ProductManagement.FilterProducts | src/pages/ProductManagement.js:60-68 | The products that match the search, as an order-preserving subsequence: each kept product matches, and each matching product is kept as many times as it occurs in the table |
| ProductManagement.SearchMatches | src/pages/ProductManagement.js:60-68 | A blank query matches every product; the query is not trimmed, so a non-blank match needs a name, category or short description at least as long as the query |
| ProductManagement.BlankSearchKeepsAll | src/pages/ProductManagement.js:59-61 | A query whose `trim()` is "" shows the whole table in order |
| ProductManagement.SearchIgnoresQueryCase | src/pages/ProductManagement.js:62-67 | A query and its lower-cased form show the same products |
| ProductManagement.AddFeature | src/pages/ProductManagement.js:80-88 | A blank input changes nothing; otherwise the trimmed text is appended and the input cleared |
| ProductManagement.RemoveFeature | src/pages/ProductManagement.js:91-96 | Removes exactly position i and keeps the others in order; an out-of-range index removes nothing |
| ProductManagement.RemoveUndoesAdd | src/pages/ProductManagement.js:80-96 | Adding keeps earlier entries and grows the list by one even for a duplicate; removing the entry just added restores the list |
| ProductManagement.AddSpec | src/pages/ProductManagement.js:99-111 | Needs both inputs non-blank; the trimmed key then maps to the trimmed value, replacing any earlier value, and both inputs are cleared |
| ProductManagement.RemoveSpec | src/pages/ProductManagement.js:114-123 | The key is gone, every other entry is kept, and an absent key changes nothing |
| ProductManagement.AddSpecOverwrites | src/pages/ProductManagement.js:99-111 | Keys that differ only in surrounding space name one entry: the second value replaces the first and no key is added |
| ProductManagement.RemoveUndoesAddSpec | src/pages/ProductManagement.js:99-123 | Adding a new key and then removing it restores the map |
| ProductManagement.NewForm | src/pages/ProductManagement.js:153-175 | The blank form: empty texts and prices, category "Cakes", type "regular", in stock, not featured, not fresh, no features or specifications |
| ProductManagement.PriceBoxOf | src/pages/ProductManagement.js:131-132 | `x \|\| ''`: a number box exactly for a present non-zero price |
| ProductManagement.EditForm | src/pages/ProductManagement.js:126-150 | Pre-population: category and type fall back to their defaults, missing numbers to 0, in-stock to true only when absent (an explicit false is kept); name, image, both descriptions and the freshness tag are copied; features and specifications are copied as values |
| ProductManagement.ChangeNumber | src/pages/ProductManagement.js:71-77 | A number input stores the parsed value, or 0 when unparsable, in the named field only |
| ProductManagement.Coerce | src/pages/ProductManagement.js:190-197 | The sent price is the form's non-zero price; the original price falls back to the price when empty or 0; reviews are truncated to an integer; name, category, image, both descriptions, features, specifications, featured, type, in-stock, freshness tag and freshness flag are copied unchanged |
| ProductManagement.Save | src/pages/ProductManagement.js:178-205 | Rejected with the aggregated message if and only if name, category, price or image is falsy; otherwise one request with the coerced body, an update of the selected product if and only if one is selected, a create otherwise |
| ProductManagement.UnparsablePriceIsRejected | src/pages/ProductManagement.js:184-188 | An unparsable price is stored as 0, which the gate rejects; so is the blank form |
| ProductManagement.SettleSave | src/pages/ProductManagement.js:184-220 | Saving always ends; a rejected form keeps the modal open with the aggregated error; success closes it with no error; failure keeps it open with the message when it is non-empty and "Failed to save product" otherwise |
| ProductManagement.EditThenSaveRoundTrip | src/pages/ProductManagement.js:126-205 | Opening a complete product and saving it unchanged sends an update of that product carrying exactly its own values, field by field, including both descriptions and the freshness tag |
| ProductManagement.DeleteStep | src/pages/ProductManagement.js:224-242 | No product selected, no request; otherwise the delete of the selected product |
| AdminOrders.GetStatusInfo | src/pages/AdminOrders.js:131-133 | Always a table entry: the one for a known status, the pending entry for any other |
| AdminOrders.StatusTableLookup | src/pages/AdminOrders.js:131-133 | Each table entry is found by its own value; an unknown status is labelled "Pending"; the entry's value equals the status if and only if the status is known |
| AdminOrders.Insert | src/pages/AdminOrders.js:57-62 | One insertion step of the newest-first sort grows the list by one; its content and order are stated by the insertion lemmas |
| AdminOrders.InsertPermutes | src/pages/AdminOrders.js:57-62 | One insertion step adds exactly the inserted order |
| AdminOrders.InsertSorted | src/pages/AdminOrders.js:57-62 | Inserting into a newest-first list keeps it newest first |
| AdminOrders.SortNewestFirst | src/pages/AdminOrders.js:57-62 | The result is newest first by `createdAt` (missing read as 0) and a permutation of the fetched orders |
| AdminOrders.SortIsStable | src/pages/AdminOrders.js:57-62 | Orders created at the same instant keep their relative order from the query result |
| AdminOrders.OuterMessage | src/pages/AdminOrders.js:74-83 | One message per known code, and "Failed to load orders: " with the error's message (or "Unknown error") otherwise |
| AdminOrders.BeginFetch | src/pages/AdminOrders.js:25-28 | Loading starts with the error cleared and the list kept |
| AdminOrders.SettleFetch | src/pages/AdminOrders.js:25-87 | Loading always cleared; success stores the sorted orders with no error; a failure keeps the list and sets a non-empty error, with the inner message for permission errors and the outer classification otherwise |
| AdminOrders.RulesMessageUnreachable | src/pages/AdminOrders.js:42-83 | The outer permission message is never shown; "unavailable" gets its message; the two permission messages differ; an empty collection loads with no error |
| AdminOrders.BeginStatusChange | src/pages/AdminOrders.js:94-103 | The order is marked as updating and one write of the new status with the clock reading is issued |
| AdminOrders.ApplyStatus | src/pages/AdminOrders.js:104-108 | Same length; orders with the id get the new status and nothing else changes; `updatedAt` is not copied |
| AdminOrders.SettleStatusChange | src/pages/AdminOrders.js:94-115 | The list changes only when the write succeeded, an error is set only when it failed, and `updating` is cleared either way |
| AdminOrders.ButtonDisabled | src/pages/AdminOrders.js:338 | During its order's write every button is disabled; with no write in flight, exactly the button of the current status is |
| AdminOrders.StatusChangeUndo | src/pages/AdminOrders.js:104-108 | Applying a change twice is applying it once, and re-applying the old status of a lone order restores the list |
| AdminOrders.ButtonsOffered | src/pages/AdminOrders.js:338 | During its write an order offers no status button; otherwise exactly the buttons other than its current status are enabled |
| AdminOrders.ModalClick | src/pages/AdminOrders.js:469-473 | The modal issues the same write as the list and shows the new status at once |
| AdminOrders.ModalDivergesOnFailedWrite | src/pages/AdminOrders.js:469-473 | After a failed write the modal shows the new status while the list keeps the old one |
| AdminOrders.FilteredOrders | src/pages/AdminOrders.js:136-149 | The orders matching both search and status filter, as an order-preserving subsequence: each shown order matches, and each matching order is shown as many times as it occurs in the list |
| AdminOrders.MatchesSearch | src/pages/AdminOrders.js:137-144 | A blank query matches every order, and an order whose lower-cased id contains the lower-cased trimmed query always matches |
| AdminOrders.MatchesStatus | src/pages/AdminOrders.js:146 | "all" passes every order; any other filter passes exactly the orders with that status |
| AdminOrders.FilterExtremes | src/pages/AdminOrders.js:137-146 | A blank query with "all" shows the whole list; any other status filter shows only orders with that status |
| AdminOrders.ComputeStats | src/pages/AdminOrders.js:152-157 | The total is the list's length, and each status count is the number of positions in the list holding an order with that status |
| AdminOrders.StatsAddUp | src/pages/AdminOrders.js:152-157 | pending + confirmed + cancelled never exceeds the total, and equals it if and only if every order has a known status |

## Left out

- Network, Firestore and `localStorage`: the request's outcome, the query's documents, the write's success and the stored token are inputs; the base URL is never concatenated into a full URL.
- `URLSearchParams` and `encodeURIComponent`: the serialiser and encoder are opaque function parameters.
- React scheduling, effect ordering, requests racing each other or resolving after unmount: each fetch is a begin step and a settle step.
- `parseFloat` and `parseInt`: a parse is an `Option<real>` input (None is NaN); floating-point rounding, `toFixed` and the count-up animation are not modelled; prices and ratings are exact reals.
- ProductManagement.Coerce: `parseInt(reviews)` is modelled as truncation toward zero, which differs for numbers whose string form uses exponent notation.
- Strings.ToLower: lower-cases ASCII letters only; Unicode case mapping is not modelled.
- Timers, observers, the hero slideshow, parallax and modal close timeouts: UI only.
- Home.LoadCarousel: a product without an image crashes the load effect in the source (`startsWith` on undefined); the model's image is always a string. The just-arrived and just-baked hooks can also deliver a `products` value that is truthy but not an array; `.map` then throws on a non-empty string and skips an object without a length. The model's input is a list of products, so it cannot express that path.
- Home.ChooseControl: `isInCart` belongs to the cart context, which is not part of this model; it is a boolean input.
- The `isMobile` resize listener: the viewport test is the parameter `mobile`.
- `hasDiscount`, the Cart and Liked contexts, and `formatDate`: not part of this model.
- The product list fetch of the admin editor: it follows the same loose shape rule as the hooks.
- `orderAPI`, `userAPI`, the contact form and App.js routing: outside the modelled core.
- TimeUtils.OrderingHoursMessage: reads one minute of the day; the source reads the clock twice, so across 9:00 it can print "Next available time: null", which the model does not show.
- AdminOrders.Key: `createdAt` is an instant in milliseconds; date parsing and Firestore timestamps are not modelled.
- Null and undefined are one `None`, except for the null response body of the hooks.
- ProductManagement.EditForm: a product whose `inStock` is null pre-populates as in stock; the source keeps the null, which the form then shows as unchecked.
- ProductHooks.NormalizeLoose: the engine's TypeError wording for a null body is a constant string.
- Catalog: a `specifications` value that is not an object is not modelled.

=== FILE: admin_orders.dfy ===
/** The admin order console: loading orders newest first, the messages for
    a failed load, the status change of one order, the status buttons, the
    search and status filter over the list, and the per-status counts.
    Firestore's query and write are parameters: their outcomes are inputs,
    and the write's timestamp is the clock reading `now`. */
module AdminOrders {
  import opened Wrappers
  import opened Strings
  import opened Seqs

  /** The customer profile stored with an order. */
  datatype Profile = Profile(name: Option<string>, email: Option<string>, phoneNumber: Option<string>)

  /** An order document; `createdAt` is in milliseconds since the epoch. */
  datatype Order = Order(
    id: string,
    createdAt: Option<int>,
    userProfile: Option<Profile>,
    customerName: Option<string>,
    customerEmail: Option<string>,
    status: string)

  // ---------------------------------------------------------------------
  // Statuses

  const Pending: string := "pending"
  const Confirmed: string := "confirmed"
  const Cancelled: string := "cancelled"

  /** An entry of the status table: value, label (here `name`) and colour. */
  datatype StatusInfo = StatusInfo(value: string, name: string, color: string)

  const OrderStatuses: seq<StatusInfo> := [
    StatusInfo(Pending, "Pending", "#f59e0b"),
    StatusInfo(Confirmed, "Confirmed", "#10b981"),
    StatusInfo(Cancelled, "Cancelled", "#ef4444")
  ]

  /** The three statuses the console knows. */
  predicate KnownStatus(status: string) {
    status == Pending || status == Confirmed || status == Cancelled
  }

  /** `getStatusInfo`: the table entry for the status, or the pending entry
      for any status the table lacks. */
  function GetStatusInfo(status: string): (r: StatusInfo)
    ensures r in OrderStatuses
    ensures KnownStatus(status) ==> r.value == status
    ensures !KnownStatus(status) ==> r == OrderStatuses[0]
  {
    if status == Pending then OrderStatuses[0]
    else if status == Confirmed then OrderStatuses[1]
    else if status == Cancelled then OrderStatuses[2]
    else OrderStatuses[0]
  }

  /** The table's values are distinct, so each known status has exactly one
      entry, and an unknown status is shown as pending. */
  lemma StatusTableLookup(status: string)
    ensures forall i | 0 <= i < |OrderStatuses| :: GetStatusInfo(OrderStatuses[i].value) == OrderStatuses[i]
    ensures !KnownStatus(status) ==> GetStatusInfo(status).name == "Pending"
    ensures GetStatusInfo(status).value == status <==> KnownStatus(status)
  {
  }

  // ---------------------------------------------------------------------
  // Newest first

  /** The sort key: `createdAt`, with a missing one read as instant 0. */
  function Key(o: Order): int {
    o.createdAt.GetOr(0)
  }

  predicate NewestFirst(s: seq<Order>) {
    forall i, j | 0 <= i < j < |s| :: Key(s[i]) >= Key(s[j])
  }

  /** One step of the sort: `x` goes before the first order that is not
      newer than it. */
  function Insert(x: Order, t: seq<Order>): (r: seq<Order>)
    ensures |r| == |t| + 1
    decreases |t|
  {
    if t == [] || Key(x) >= Key(t[0]) then [x] + t
    else [t[0]] + Insert(x, t[1..])
  }

  /** Inserting adds exactly `x`. */
  lemma {:induction false} InsertPermutes(x: Order, t: seq<Order>)
    ensures multiset(Insert(x, t)) == multiset(t) + multiset{x}
    decreases |t|
  {
    if t != [] && Key(x) < Key(t[0]) {
      InsertPermutes(x, t[1..]);
      assert t == [t[0]] + t[1..];
    }
  }

  /** Every order of the result is `x` or comes from `t`. */
  lemma {:induction false} InsertElements(x: Order, t: seq<Order>)
    ensures forall k | 0 <= k < |Insert(x, t)| :: Insert(x, t)[k] == x || Insert(x, t)[k] in t
    decreases |t|
  {
    if t != [] && Key(x) < Key(t[0]) {
      InsertElements(x, t[1..]);
      var rest := Insert(x, t[1..]);
      assert forall k | 1 <= k < |Insert(x, t)| :: Insert(x, t)[k] == rest[k - 1];
      assert forall y | y in t[1..] :: y in t;
    }
  }

  /** Inserting into a newest-first list keeps it newest first. */
  lemma {:induction false} InsertSorted(x: Order, t: seq<Order>)
    requires NewestFirst(t)
    ensures NewestFirst(Insert(x, t))
    decreases |t|
  {
    if t != [] && Key(x) < Key(t[0]) {
      var rest := Insert(x, t[1..]);
      InsertSorted(x, t[1..]);
      InsertElements(x, t[1..]);
      assert forall k | 0 <= k < |rest| :: Key(t[0]) >= Key(rest[k]) by {
        forall k | 0 <= k < |rest| ensures Key(t[0]) >= Key(rest[k]) {
          if rest[k] != x {
            var m :| 0 <= m < |t[1..]| && t[1..][m] == rest[k];
            assert t[1..][m] == t[m + 1];
          }
        }
      }
      var r := Insert(x, t);
      assert forall k | 1 <= k < |r| :: r[k] == rest[k - 1];
    }
  }

  /** The sort of `fetchOrders`: newest first and the same orders. */
  function SortNewestFirst(s: seq<Order>): (r: seq<Order>)
    ensures NewestFirst(r)
    ensures multiset(r) == multiset(s)
    ensures |r| == |s|
    decreases |s|
  {
    if s == [] then []
    else
      assert s == [s[0]] + s[1..];
      InsertSorted(s[0], SortNewestFirst(s[1..]));
      InsertPermutes(s[0], SortNewestFirst(s[1..]));
      Insert(s[0], SortNewestFirst(s[1..]))
  }

  /** The orders created at instant `k`. */
  function CreatedAt(k: int): Order -> bool {
    (o: Order) => Key(o) == k
  }

  lemma {:induction false} InsertKeepsTies(x: Order, t: seq<Order>, k: int)
    ensures Filter(Insert(x, t), CreatedAt(k)) ==
      if Key(x) == k then [x] + Filter(t, CreatedAt(k)) else Filter(t, CreatedAt(k))
    decreases |t|
  {
    var p := CreatedAt(k);
    if t == [] || Key(x) >= Key(t[0]) {
      FilterCons(x, t, p);
    } else {
      var rest := Insert(x, t[1..]);
      InsertKeepsTies(x, t[1..], k);
      FilterCons(t[0], rest, p);
      FilterCons(t[0], t[1..], p);
      assert t == [t[0]] + t[1..];
      if Key(x) == k {
        assert !p(t[0]);
      }
    }
  }

  /** The sort is stable: the orders created at any one instant appear in
      the sorted list exactly as they did in the query's result, as the
      stable sort of JavaScript arrays keeps them. */
  lemma {:induction false} SortIsStable(s: seq<Order>, k: int)
    ensures Filter(SortNewestFirst(s), CreatedAt(k)) == Filter(s, CreatedAt(k))
    decreases |s|
  {
    if s != [] {
      SortIsStable(s[1..], k);
      InsertKeepsTies(s[0], SortNewestFirst(s[1..]), k);
    }
  }

  // ---------------------------------------------------------------------
  // Loading

  /** The console's state: `orders`, `loading` and `error` ("" for none). */
  datatype OrdersState = OrdersState(orders: seq<Order>, loading: bool, error: string)

  /** What the orders query did: returned its documents, or failed with a
      Firestore error code and message. */
  datatype QueryOutcome = Loaded(docs: seq<Order>) | QueryFailed(code: string, message: string)

  const PermissionDeniedCode: string := "permission-denied"
  const UnavailableCode: string := "unavailable"
  const UnauthenticatedCode: string := "unauthenticated"

  const NotAdminMessage: string := "Permission denied. Please make sure you are logged in as admin."
  const RulesMessage: string := "Permission denied. " + "Please check Firebase security rules."
  const UnavailableMessage: string := "Service temporarily unavailable. " + "Please try again."
  const UnauthenticatedMessage: string := "You need to be logged in " + "to view orders."
  const LoadFailedPrefix: string := "Failed to load orders: "
  const UnknownError: string := "Unknown error"

  /** The outer handler of `fetchOrders`: one message per known code and a
      generic one carrying the error's message otherwise. */
  function OuterMessage(code: string, message: string): (r: string)
    ensures code == PermissionDeniedCode ==> r == RulesMessage
    ensures code == UnavailableCode ==> r == UnavailableMessage
    ensures code == UnauthenticatedCode ==> r == UnauthenticatedMessage
    ensures code !in {PermissionDeniedCode, UnavailableCode, UnauthenticatedCode} ==>
      r == LoadFailedPrefix + (if message != "" then message else UnknownError)
  {
    if code == PermissionDeniedCode then RulesMessage
    else if code == UnavailableCode then UnavailableMessage
    else if code == UnauthenticatedCode then UnauthenticatedMessage
    else LoadFailedPrefix + (if message != "" then message else UnknownError)
  }

  /** The start of `fetchOrders`. */
  function BeginFetch(s: OrdersState): (r: OrdersState)
    ensures r == s.(loading := true, error := "")
  {
    s.(loading := true, error := "")
  }

  /** `fetchOrders` once the query has answered. The inner handler takes a
      permission error itself; every other error reaches the outer handler,
      and in both cases the list keeps what it held. */
  function SettleFetch(s: OrdersState, outcome: QueryOutcome): (r: OrdersState)
    ensures !r.loading
    ensures outcome.Loaded? ==> r.orders == SortNewestFirst(outcome.docs) && r.error == ""
    ensures outcome.QueryFailed? ==> r.orders == s.orders && r.error != ""
    ensures outcome.QueryFailed? && outcome.code == PermissionDeniedCode ==> r.error == NotAdminMessage
    ensures outcome.QueryFailed? && outcome.code != PermissionDeniedCode ==>
      r.error == OuterMessage(outcome.code, outcome.message)
  {
    match outcome
    case Loaded(docs) => OrdersState(SortNewestFirst(docs), false, "")
    case QueryFailed(code, message) =>
      if code == PermissionDeniedCode then s.(loading := false, error := NotAdminMessage)
      else s.(loading := false, error := OuterMessage(code, message))
  }

  /** The outer handler's permission message is never shown: the inner
      handler has already answered every permission error. Each code still
      gets its own message, and loading an empty collection shows no error. */
  lemma RulesMessageUnreachable(s: OrdersState, outcome: QueryOutcome)
    ensures SettleFetch(s, outcome).error != RulesMessage
    ensures outcome.QueryFailed? && outcome.code == UnavailableCode ==>
      SettleFetch(s, outcome).error == UnavailableMessage
    ensures NotAdminMessage != RulesMessage
    ensures SettleFetch(s, Loaded([])) == OrdersState([], false, "")
  {
    assert |NotAdminMessage| != |RulesMessage|;
    if outcome.QueryFailed? && outcome.code !in {PermissionDeniedCode, UnavailableCode, UnauthenticatedCode} {
      var e := SettleFetch(s, outcome).error;
      assert e[0] == 'F';
    }
    assert UnavailableMessage[0] != RulesMessage[0];
    assert UnauthenticatedMessage[0] != RulesMessage[0];
  }

  // ---------------------------------------------------------------------
  // Changing a status

  const UpdateFailedMessage: string := "Failed to update order status. Please try again."

  /** The Firestore write of a status change. */
  datatype StatusWrite = StatusWrite(orderId: string, status: string, updatedAt: int)

  /** The console state a status change touches; `updating` is the id of
      the order being written, if any. */
  datatype ConsoleState = ConsoleState(orders: seq<Order>, error: string, updating: Option<string>)

  /** The start of `handleStatusChange`: the order is marked as updating and
      the write is issued with the clock reading `now`. */
  function BeginStatusChange(s: ConsoleState, orderId: string, newStatus: string, now: int): (r: (ConsoleState, StatusWrite))
    ensures r.0 == s.(updating := Some(orderId))
    ensures r.1 == StatusWrite(orderId, newStatus, now)
  {
    (s.(updating := Some(orderId)), StatusWrite(orderId, newStatus, now))
  }

  /** The local list after a confirmed write: the orders with the id get the
      new status and nothing else changes. */
  function ApplyStatus(orders: seq<Order>, orderId: string, newStatus: string): (r: seq<Order>)
    ensures |r| == |orders|
    ensures forall i | 0 <= i < |orders| ::
      && (orders[i].id == orderId ==> r[i] == orders[i].(status := newStatus))
      && (orders[i].id != orderId ==> r[i] == orders[i])
  {
    seq(|orders|, i requires 0 <= i < |orders| =>
      if orders[i].id == orderId then orders[i].(status := newStatus) else orders[i])
  }

  /** `handleStatusChange` once the write has answered: the list changes
      only when the write succeeded, an error is recorded only when it
      failed, and `updating` is cleared either way. */
  function SettleStatusChange(s: ConsoleState, orderId: string, newStatus: string, writeOk: bool): (r: ConsoleState)
    ensures r.updating.None?
    ensures writeOk ==> r.orders == ApplyStatus(s.orders, orderId, newStatus) && r.error == s.error
    ensures !writeOk ==> r.orders == s.orders && r.error == UpdateFailedMessage
  {
    if writeOk then ConsoleState(ApplyStatus(s.orders, orderId, newStatus), s.error, None)
    else ConsoleState(s.orders, UpdateFailedMessage, None)
  }

  /** A confirmed change is idempotent and reversible: applying it twice is
      applying it once, and applying the old status of a lone order with
      that id afterwards restores the list. */
  lemma StatusChangeUndo(orders: seq<Order>, index: nat, newStatus: string)
    requires index < |orders|
    requires forall i | 0 <= i < |orders| && i != index :: orders[i].id != orders[index].id
    ensures var id := orders[index].id;
      ApplyStatus(ApplyStatus(orders, id, newStatus), id, newStatus) == ApplyStatus(orders, id, newStatus)
    ensures var id := orders[index].id;
      ApplyStatus(ApplyStatus(orders, id, newStatus), id, orders[index].status) == orders
  {
    var id := orders[index].id;
    var once := ApplyStatus(orders, id, newStatus);
    var back := ApplyStatus(once, id, orders[index].status);
    assert forall i | 0 <= i < |orders| :: back[i] == orders[i];
  }

  /** A status button is disabled while its order is being written, and on
      the order's current status. */
  predicate ButtonDisabled(updating: Option<string>, order: Order, value: string)
    ensures updating == Some(order.id) ==> ButtonDisabled(updating, order, value)
    ensures updating.None? ==> (ButtonDisabled(updating, order, value) <==> order.status == value)
  {
    updating == Some(order.id) || order.status == value
  }

  /** With no write in flight, an order with a known status offers exactly
      the two other statuses; during its write it offers none. */
  lemma ButtonsOffered(updating: Option<string>, order: Order)
    ensures updating == Some(order.id) ==>
      forall i | 0 <= i < |OrderStatuses| :: ButtonDisabled(updating, order, OrderStatuses[i].value)
    ensures updating != Some(order.id) ==>
      forall i | 0 <= i < |OrderStatuses| ::
        ButtonDisabled(updating, order, OrderStatuses[i].value) <==> OrderStatuses[i].value == order.status
  {
  }

  /** The details modal's button: the write is issued and the modal shows
      the new status at once, before the write answers. */
  function ModalClick(s: ConsoleState, selected: Order, value: string, now: int): (r: (ConsoleState, StatusWrite, Order))
    ensures r.2 == selected.(status := value)
    ensures (r.0, r.1) == BeginStatusChange(s, selected.id, value, now)
  {
    var (s', write) := BeginStatusChange(s, selected.id, value, now);
    (s', write, selected.(status := value))
  }

  /** When the write fails, the modal and the list disagree: the modal shows
      the new status while the list keeps the old one. */
  lemma ModalDivergesOnFailedWrite(s: ConsoleState, index: nat, value: string, now: int)
    requires index < |s.orders| && s.orders[index].status != value
    ensures var (s', _, shown) := ModalClick(s, s.orders[index], value, now);
      var settled := SettleStatusChange(s', s.orders[index].id, value, false);
      && shown.status == value
      && settled.orders[index].status != value
      && settled.orders[index].id == shown.id
  {
  }

  // ---------------------------------------------------------------------
  // Search, status filter and counts

  /** `t` is present and contains `q` after lower-casing. */
  predicate FieldHas(t: Option<string>, q: string) {
    t.Some? && Contains(ToLower(t.value), q)
  }

  /** The search of the order list. The query is lower-cased and trimmed;
      a query that is then empty matches every order. The phone number is
      tested against the raw query instead, case and surrounding space
      included. */
  predicate MatchesSearch(query: string, o: Order)
    ensures Blank(query) ==> MatchesSearch(query, o)
    ensures Contains(ToLower(o.id), Trim(ToLower(query))) ==> MatchesSearch(query, o)
  {
    ToLowerKeepsBlank(query);
    TrimEmptyIffBlank(ToLower(query));
    var q := Trim(ToLower(query));
    || q == ""
    || Contains(ToLower(o.id), q)
    || (o.userProfile.Some? && FieldHas(o.userProfile.value.name, q))
    || (o.userProfile.Some? && FieldHas(o.userProfile.value.email, q))
    || (o.userProfile.Some? && o.userProfile.value.phoneNumber.Some?
        && Contains(o.userProfile.value.phoneNumber.value, query))
    || FieldHas(o.customerName, q)
    || FieldHas(o.customerEmail, q)
  }

  const AllStatuses: string := "all"

  /** The status filter: "all" passes every order, any other value only the
      orders with exactly that status. */
  predicate MatchesStatus(statusFilter: string, o: Order)
    ensures statusFilter == AllStatuses ==> MatchesStatus(statusFilter, o)
    ensures statusFilter != AllStatuses ==> (MatchesStatus(statusFilter, o) <==> o.status == statusFilter)
  {
    statusFilter == AllStatuses || o.status == statusFilter
  }

  /** The filter callback of `filteredOrders`. */
  function Shown(query: string, statusFilter: string): Order -> bool {
    (o: Order) => MatchesSearch(query, o) && MatchesStatus(statusFilter, o)
  }

  /** `filteredOrders`: the orders that match both the search and the status
      filter, in list order. */
  function FilteredOrders(orders: seq<Order>, query: string, statusFilter: string): (r: seq<Order>)
    ensures forall i | 0 <= i < |r| :: r[i] in orders && MatchesSearch(query, r[i]) && MatchesStatus(statusFilter, r[i])
    ensures forall i | 0 <= i < |orders| ::
      MatchesSearch(query, orders[i]) && MatchesStatus(statusFilter, orders[i]) ==> orders[i] in r
    ensures IsSubsequence(r, orders)
    ensures forall x :: multiset(r)[x] ==
                        (if MatchesSearch(query, x) && MatchesStatus(statusFilter, x) then multiset(orders)[x] else 0)
  {
    FilterIsSubsequence(orders, Shown(query, statusFilter));
    FilterMultiset(orders, Shown(query, statusFilter));
    Filter(orders, Shown(query, statusFilter))
  }

  /** A blank query with the "all" filter shows the whole list; any other
      status filter shows only orders with that status. */
  lemma FilterExtremes(orders: seq<Order>, query: string, statusFilter: string)
    ensures Blank(query) && statusFilter == AllStatuses ==> FilteredOrders(orders, query, statusFilter) == orders
    ensures statusFilter != AllStatuses ==>
      forall i | 0 <= i < |FilteredOrders(orders, query, statusFilter)| ::
        FilteredOrders(orders, query, statusFilter)[i].status == statusFilter
  {
    if Blank(query) && statusFilter == AllStatuses {
      ToLowerKeepsBlank(query);
      TrimEmptyIffBlank(ToLower(query));
      FilterAll(orders, Shown(query, statusFilter));
    }
  }

  /** The orders with status `v`. */
  function HasStatus(v: string): Order -> bool {
    (o: Order) => o.status == v
  }

  /** The four numbers on the stats cards. */
  datatype Stats = Stats(total: nat, pending: nat, confirmed: nat, cancelled: nat)

  /** The number of positions of `orders` holding an order with status `v`. */
  lemma StatusCount(orders: seq<Order>, v: string)
    ensures |Filter(orders, HasStatus(v))| == |set i | 0 <= i < |orders| && orders[i].status == v|
  {
    FilterCountsPositions(orders, HasStatus(v), set i | 0 <= i < |orders| && orders[i].status == v);
  }

  /** `stats`: the total, and for each status the number of orders that
      have it. The counts are those of the filters `StatsAddUp` relates. */
  function ComputeStats(orders: seq<Order>): (r: Stats)
    ensures r.total == |orders|
    ensures r.pending == |set i | 0 <= i < |orders| && orders[i].status == Pending|
    ensures r.confirmed == |set i | 0 <= i < |orders| && orders[i].status == Confirmed|
    ensures r.cancelled == |set i | 0 <= i < |orders| && orders[i].status == Cancelled|
    ensures r.pending == |Filter(orders, HasStatus(Pending))|
    ensures r.confirmed == |Filter(orders, HasStatus(Confirmed))|
    ensures r.cancelled == |Filter(orders, HasStatus(Cancelled))|
  {
    StatusCount(orders, Pending);
    StatusCount(orders, Confirmed);
    StatusCount(orders, Cancelled);
    Stats(|orders|, |Filter(orders, HasStatus(Pending))|, |Filter(orders, HasStatus(Confirmed))|,
          |Filter(orders, HasStatus(Cancelled))|)
  }

  /** The three status counts never exceed the total, and they add up to it
      exactly when every order has a known status. */
  lemma {:induction false} StatsAddUp(orders: seq<Order>)
    ensures var st := ComputeStats(orders);
      st.pending + st.confirmed + st.cancelled <= st.total
    ensures var st := ComputeStats(orders);
      (st.pending + st.confirmed + st.cancelled == st.total)
      <==> (forall i | 0 <= i < |orders| :: KnownStatus(orders[i].status))
  {
    var pendingOrConfirmed: Order -> bool := (o: Order) => o.status == Pending || o.status == Confirmed;
    var known: Order -> bool := (o: Order) => KnownStatus(o.status);
    FilterDisjointCount(orders, HasStatus(Pending), HasStatus(Confirmed), pendingOrConfirmed);
    FilterDisjointCount(orders, pendingOrConfirmed, HasStatus(Cancelled), known);
    FilterLengthFull(orders, known);
  }
}

=== FILE: api.dfy ===
/** The REST request helpers: endpoint construction, query-parameter
    cleaning, header merging and the classification of a response into a
    value or a thrown error. The network, `localStorage` and the
    URL-encoding routines are parameters. */
module Api {
  import opened Wrappers
  import opened Strings
  import opened Seqs
  import opened Catalog

  const DefaultBaseUrl: string := "http://localhost:5000"

  /** `REACT_APP_API_BASE_URL || 'http://localhost:5000'` */
  function BaseUrl(env: Option<string>): (r: string)
    ensures env.Some? && env.value != "" ==> r == env.value
    ensures env.None? || env.value == "" ==> r == DefaultBaseUrl
  {
    if env.Some? && env.value != "" then env.value else DefaultBaseUrl
  }

  datatype Method = GET | POST | PUT | DELETE

  /** What `apiRequest` hands to `fetch`, minus the headers; `B` is the
      JSON body's type. */
  datatype Request<B> = Request(verb: Method, endpoint: string, body: Option<B>)

  // ---------------------------------------------------------------------
  // Query parameters of the product listing

  /** A query-parameter value as a caller may pass it. */
  datatype ParamValue = Undefined | Null | Str(s: string) | Num(n: real) | Flag(b: bool)

  /** The values `getAllProducts` drops: `undefined`, `null` and "". */
  predicate Kept(v: ParamValue) {
    !(v.Undefined? || v.Null? || v == Str(""))
  }

  /** The cleaning loop of `getAllProducts`: keeps, in key order, exactly
      the entries whose value is kept, with their values unchanged. */
  function CleanParams(params: seq<(string, ParamValue)>): (r: seq<(string, ParamValue)>)
    ensures forall i | 0 <= i < |r| :: r[i] in params && Kept(r[i].1)
    ensures forall i | 0 <= i < |params| :: Kept(params[i].1) ==> params[i] in r
    ensures IsSubsequence(r, params)
    ensures forall e :: multiset(r)[e] == if Kept(e.1) then multiset(params)[e] else 0
  {
    FilterIsSubsequence(params, (e: (string, ParamValue)) => Kept(e.1));
    FilterMultiset(params, (e: (string, ParamValue)) => Kept(e.1));
    Filter(params, (e: (string, ParamValue)) => Kept(e.1))
  }

  /** The listing endpoint for an already serialised query string. */
  function ProductsEndpoint(queryString: string): (r: string)
    ensures StartsWith(r, "/products")
    ensures queryString == "" <==> r == "/products"
    ensures queryString != "" ==> r[..10] == "/products?" && r[10..] == queryString
  {
    if queryString == "" then "/products" else "/products?" + queryString
  }

  /** `getAllProducts(params)`. The serialiser (`URLSearchParams`) is a
      parameter; it only ever sees the cleaned entries: the kept entries of
      `params`, each as often as it occurs there, in their order. */
  function GetAllProducts<B>(params: seq<(string, ParamValue)>, serialize: seq<(string, ParamValue)> -> string): (r: Request<B>)
    ensures r.verb == GET && r.body.None?
    ensures StartsWith(r.endpoint, "/products")
    ensures exists q: seq<(string, ParamValue)> ::
      && r.endpoint == ProductsEndpoint(serialize(q))
      && IsSubsequence(q, params)
      && (forall e :: multiset(q)[e] == if Kept(e.1) then multiset(params)[e] else 0)
    ensures r.endpoint == ProductsEndpoint(serialize(CleanParams(params)))
  {
    var q := CleanParams(params);
    assert IsSubsequence(q, params);
    Request(GET, ProductsEndpoint(serialize(CleanParams(params))), None)
  }

  /** Parameters that are all empty produce the same request as no
      parameters at all: an absent filter never reaches the query string. */
  lemma EmptyParamsAreDropped<B>(params: seq<(string, ParamValue)>, serialize: seq<(string, ParamValue)> -> string)
    requires forall i | 0 <= i < |params| :: !Kept(params[i].1)
    ensures GetAllProducts<B>(params, serialize) == GetAllProducts<B>([], serialize)
  {
    assert CleanParams(params) == [];
  }

  // ---------------------------------------------------------------------
  // Fixed endpoints

  const JustArrivedEndpoint: string := "/products?featured=true&type=just-arrived"
  const JustBakedEndpoint: string := "/products?featured=true&type=just-baked"

  function ProductPath(id: string): string {
    "/products/" + id
  }

  function JustArrivedRequest<B>(): Request<B> {
    Request(GET, JustArrivedEndpoint, None)
  }

  function JustBakedRequest<B>(): Request<B> {
    Request(GET, JustBakedEndpoint, None)
  }

  /** `getProductsByCategory`; `encodeURIComponent` is applied by the caller. */
  function CategoryRequest<B>(encodedCategory: string): Request<B> {
    Request(GET, "/products?category=" + encodedCategory, None)
  }

  /** `searchProducts`; `encodeURIComponent` is applied by the caller. */
  function SearchRequest<B>(encodedQuery: string): Request<B> {
    Request(GET, "/products/search?q=" + encodedQuery, None)
  }

  function GetByIdRequest<B>(id: string): Request<B> {
    Request(GET, ProductPath(id), None)
  }

  function CreateRequest<B>(body: B): Request<B> {
    Request(POST, "/products", Some(body))
  }

  function UpdateRequest<B>(id: string, body: B): Request<B> {
    Request(PUT, ProductPath(id), Some(body))
  }

  function DeleteRequest<B>(id: string): Request<B> {
    Request(DELETE, ProductPath(id), None)
  }

  /** The product endpoints: every path is under "/products"; a product's
      path names exactly one id; reads carry no body and the three writes
      use POST, PUT and DELETE. */
  lemma ProductEndpoints<B>(id: string, id': string, body: B)
    ensures StartsWith(JustArrivedEndpoint, "/products") && StartsWith(JustBakedEndpoint, "/products")
    ensures JustArrivedEndpoint != JustBakedEndpoint
    ensures ProductPath(id) == ProductPath(id') ==> id == id'
    ensures GetByIdRequest<B>(id).endpoint == UpdateRequest(id, body).endpoint == DeleteRequest<B>(id).endpoint
    ensures GetByIdRequest<B>(id).verb == GET && GetByIdRequest<B>(id).body.None?
    ensures UpdateRequest(id, body).verb == PUT && UpdateRequest(id, body).body == Some(body)
    ensures DeleteRequest<B>(id).verb == DELETE && DeleteRequest<B>(id).body.None?
    ensures CreateRequest(body).verb == POST && CreateRequest(body).endpoint == "/products"
    ensures SearchRequest<B>(id).verb == GET && SearchRequest<B>(id).body.None?
    ensures SearchRequest<B>(id).endpoint == "/products/search?q=" + id
    ensures CategoryRequest<B>(id).verb == GET && CategoryRequest<B>(id).body.None?
    ensures CategoryRequest<B>(id).endpoint == "/products?category=" + id
  {
    if ProductPath(id) == ProductPath(id') {
      assert id == ProductPath(id)[10..];
      assert id' == ProductPath(id')[10..];
    }
    assert JustArrivedEndpoint[..9] == "/products";
    assert JustBakedEndpoint[..9] == "/products";
    assert |JustArrivedEndpoint| != |JustBakedEndpoint|;
  }

  // ---------------------------------------------------------------------
  // Headers

  const ContentType: string := "Content-Type"
  const Authorization: string := "Authorization"
  const JsonMediaType: string := "application/json"

  /** The default headers of `apiRequest`; the stored token is added when it
      is truthy (present and non-empty), in the bearer form of section 2.1
      of RFC 6750. */
  function DefaultHeaders(token: Option<string>): (r: map<string, string>)
    ensures ContentType in r && r[ContentType] == JsonMediaType
    ensures Authorization in r <==> token.Some? && token.value != ""
    ensures Authorization in r ==> r[Authorization] == "Bearer " + token.value
    ensures r.Keys <= {ContentType, Authorization}
  {
    var base := map[ContentType := JsonMediaType];
    if token.Some? && token.value != "" then base[Authorization := "Bearer " + token.value] else base
  }

  /** `{ ...defaultHeaders, ...options.headers }`: caller headers override
      the defaults key by key; every other default survives. */
  function MergeHeaders(token: Option<string>, caller: map<string, string>): (r: map<string, string>)
    ensures r.Keys == DefaultHeaders(token).Keys + caller.Keys
    ensures forall k | k in caller :: r[k] == caller[k]
    ensures forall k | k in DefaultHeaders(token) && k !in caller :: r[k] == DefaultHeaders(token)[k]
  {
    DefaultHeaders(token) + caller
  }

  /** A request without caller headers always declares JSON and carries the
      bearer token exactly when one is stored. */
  lemma HeadersWithoutOverrides(token: Option<string>)
    ensures MergeHeaders(token, map[])[ContentType] == JsonMediaType
    ensures Authorization in MergeHeaders(token, map[]) <==> token.Some? && token.value != ""
    ensures Authorization in MergeHeaders(token, map[]) ==>
      MergeHeaders(token, map[])[Authorization] == "Bearer " + token.value
  {
  }

  // ---------------------------------------------------------------------
  // Responses

  /** What `fetch` resolves to: the status, the `content-type` header, the
      body read as text, and the body read as JSON (a parse error is a
      thrown error with its message). */
  datatype Response = Response(
    ok: bool,
    status: nat,
    contentType: Option<string>,
    text: string,
    json: Result<Payload>)

  /** The message of the error thrown when `data.message` is read from a
      JSON `null`; the wording is the JavaScript engine's. */
  const NullMessageError: string := "Cannot read properties of null (reading 'message')"

  /** The content type marks a JSON body. */
  predicate IsJson(contentType: Option<string>) {
    contentType.Some? && Contains(contentType.value, JsonMediaType)
  }

  function StatusMessage(status: nat): (r: string)
    ensures |r| > 0
  {
    "HTTP error! status: " + NatToString(status)
  }

  /** The response handling of `apiRequest`. */
  function Classify(response: Response): (r: Result<Payload>)
    // a non-JSON body is passed through as text on success
    ensures !IsJson(response.contentType) && response.ok ==> r == Success(Text(response.text))
    ensures !IsJson(response.contentType) && !response.ok ==>
      r == Failure(if response.text != "" then response.text else StatusMessage(response.status))
    // a JSON body is returned parsed on success
    ensures IsJson(response.contentType) && response.json.Success? && response.ok ==> r == response.json
    ensures IsJson(response.contentType) && response.json.Failure? ==> r == response.json
    ensures IsJson(response.contentType) && response.json.Success? && !response.ok ==>
      && r.Failure?
      && (response.json.value.Record? && response.json.value.message != "" ==>
            r.message == response.json.value.message)
      && (response.json.value.Nullish? ==> r.message == NullMessageError)
      && (response.json.value.List? || response.json.value.Text? ||
          (response.json.value.Record? && response.json.value.message == "") ==>
            r.message == StatusMessage(response.status))
    // only an OK response produces a value
    ensures r.Success? ==> response.ok
  {
    if !IsJson(response.contentType) then
      if !response.ok then
        Failure(if response.text != "" then response.text else StatusMessage(response.status))
      else
        Success(Text(response.text))
    else
      match response.json
      case Failure(m) => Failure(m)
      case Success(data) =>
        if !response.ok then
          match data
          case Nullish => Failure(NullMessageError)
          case Record(_, message) => Failure(if message != "" then message else StatusMessage(response.status))
          case _ => Failure(StatusMessage(response.status))
        else
          Success(data)
  }

  /** A failed response whose body could be read always yields an error
      with a non-empty message: the server's text or message when it sent
      one, the status otherwise. */
  lemma FailureMessageNonEmpty(response: Response)
    requires !response.ok
    requires IsJson(response.contentType) ==> response.json.Success?
    ensures Classify(response).Failure? && Classify(response).message != ""
  {
  }
}

=== FILE: catalog.dfy ===
/** The product record as the REST API returns it, and the shapes a
    response body can take. */
module Catalog {
  import opened Wrappers

  /** A product. String fields hold "" where the record lacks them; the
      fields whose absence the views test with `||` or `!== undefined`
      are options (`None` is `undefined`/`null`). */
  datatype Product = Product(
    id: string,
    name: string,
    category: string,
    price: Option<real>,
    originalPrice: Option<real>,
    discount: Option<real>,
    rating: Option<real>,
    reviews: Option<real>,
    image: string,
    shortDescription: string,
    fullDescription: string,
    features: Option<seq<string>>,
    specifications: Option<map<string, string>>,
    featured: Option<bool>,
    productType: string,
    inStock: Option<bool>,
    freshnessTag: string,
    isFresh: Option<bool>)

  /** The `products` property of a response object. */
  datatype Field =
    | Missing                        // undefined or any falsy value
    | ListField(items: seq<Product>) // an array
    | NonList(description: string)   // a truthy value that is not an array

  /** A parsed response body. JSON numbers and booleans behave like `Text`
      for every consumer: they have neither `products` nor `message`. */
  datatype Payload =
    | Nullish                                   // JSON null
    | List(items: seq<Product>)                 // a bare array
    | Record(products: Field, message: string)  // an object; message "" when absent
    | Text(text: string)                        // a non-JSON body returned as text
}

=== FILE: home.dfy ===
/** The home page's two product carousels ("Just Arrived" and "Fresherly
    Baked"): the circular window over a product list, the Next button, the
    index-reset effect, the load rule for API results, the cart-quantity
    controls and the star rating. The viewport test is the parameter
    `mobile`; the cart is passed in as its list of items. */
module Home {
  import opened Wrappers
  import opened Strings
  import opened Seqs
  import opened Catalog
  import opened JsNumbers

  // ---------------------------------------------------------------------
  // The carousel window

  /** `isMobile ? 4 : 3`, the number of cards per view. */
  function PerView(mobile: bool): (w: nat)
    ensures w == 3 || w == 4
  {
    if mobile then 4 else 3
  }

  /** `s.slice(start, end)` for non-negative arguments. */
  function Slice<T>(s: seq<T>, start: nat, end: nat): (r: seq<T>)
    ensures start <= end <= |s| ==> r == s[start..end]
    ensures start <= |s| <= end ==> r == s[start..]
    ensures start >= |s| || end <= start ==> r == []
  {
    var a := if start < |s| then start else |s|;
    var b := if end < |s| then end else |s|;
    if a < b then s[a..b] else []
  }

  lemma ModInRange(a: int, n: int)
    requires 0 < n && 0 <= a < 2 * n
    ensures a % n == if a < n then a else a - n
  {
    var q := a / n;
    assert a == q * n + a % n;
    assert 0 <= a % n < n;
    assert 0 <= q <= 1;
  }

  /** The visible window of a carousel over `items` starting at `index`:
      the whole list when it fits, otherwise one window's worth of cards
      from `index`, continued from the front of the list when the end is
      reached. */
  function VisibleWindow<T>(items: seq<T>, index: nat, mobile: bool): (r: seq<T>)
    ensures |items| <= PerView(mobile) ==> r == items
    ensures |items| > PerView(mobile) ==> |r| == PerView(mobile)
  {
    var w := PerView(mobile);
    if |items| <= w then items
    else if index + w <= |items| then items[index..index + w]
    else
      var first := if index < |items| then items[index..] else [];
      first + items[..w - |first|]
  }

  /** A window over a list that does not fit is a rotation: its k-th card
      is the (index+k)-th card of the list, counted round the end. An index
      past the end shows the first window. */
  lemma {:induction false} WindowIsRotation<T>(items: seq<T>, index: nat, mobile: bool)
    requires |items| > PerView(mobile)
    ensures index < |items| ==> forall k | 0 <= k < PerView(mobile) ::
      VisibleWindow(items, index, mobile)[k] == items[(index + k) % |items|]
    ensures index >= |items| ==> VisibleWindow(items, index, mobile) == items[..PerView(mobile)]
  {
    var n := |items|;
    var w := PerView(mobile);
    var r := VisibleWindow(items, index, mobile);
    if index < n {
      forall k | 0 <= k < w ensures r[k] == items[(index + k) % n] {
        ModInRange(index + k, n);
        if index + w > n && index + k >= n {
          assert r[k] == items[..w - (n - index)][index + k - n];
        }
      }
    }
  }

  /** The worked example: ten products on a wide screen starting at the
      last one show the last, the first and the second. */
  lemma WindowWrapsAround<T>(items: seq<T>)
    requires |items| == 10
    ensures VisibleWindow(items, 9, false) == [items[9], items[0], items[1]]
  {
    var r := VisibleWindow(items, 9, false);
    WindowIsRotation(items, 9, false);
    assert r[0] == items[9 % 10];
    assert r[1] == items[10 % 10];
    assert r[2] == items[11 % 10];
  }

  /** `handleNextJustArrived` / `handleNextJustBaked`: advance by one
      window, modulo the list length; a list that fits is left alone. */
  function NextIndex(n: nat, index: nat, mobile: bool): (r: nat)
    ensures n <= PerView(mobile) ==> r == index
    ensures n > PerView(mobile) ==> r < n
  {
    if n <= PerView(mobile) then index else (index + PerView(mobile)) % n
  }

  /** The Next button is shown once loading has finished without error and
      the list does not fit in one window. */
  predicate ShowNext(loading: bool, hasError: bool, n: nat, mobile: bool) {
    !loading && !hasError && n > PerView(mobile)
  }

  /** The Next button is offered exactly when pressing it would move the
      window: a list that fits has no button, and Next leaves its index
      alone. */
  lemma ShowNextMoves(loading: bool, hasError: bool, n: nat, index: nat, mobile: bool)
    requires index < n
    ensures ShowNext(loading, hasError, n, mobile) <==>
      !loading && !hasError && NextIndex(n, index, mobile) != index
    ensures n <= PerView(mobile) ==> !ShowNext(loading, hasError, n, mobile) && NextIndex(n, index, mobile) == index
  {
    var w := PerView(mobile);
    if n > w {
      ModBelowThree(index + w, n);
    }
  }

  /** The index-reset effect. */
  function ResetIndex(n: nat, index: nat, mobile: bool): (r: nat)
    ensures (n == 0 || n <= PerView(mobile) || index >= n) ==> r == 0
    ensures !(n == 0 || n <= PerView(mobile) || index >= n) ==> r == index
  {
    if n == 0 then
      (if index != 0 then 0 else index)
    else if n <= PerView(mobile) && index != 0 then 0
    else if index >= n then 0
    else index
  }

  /** The indices the reset effect leaves alone. */
  predicate ValidIndex(n: nat, index: nat, mobile: bool) {
    index == 0 || (n > PerView(mobile) && index < n)
  }

  /** The reset effect reaches a fixpoint in one step, and its fixpoints are
      exactly the valid indices. */
  lemma ResetSettles(n: nat, index: nat, mobile: bool)
    ensures ValidIndex(n, ResetIndex(n, index, mobile), mobile)
    ensures ResetIndex(n, ResetIndex(n, index, mobile), mobile) == ResetIndex(n, index, mobile)
    ensures ResetIndex(n, index, mobile) == index <==> ValidIndex(n, index, mobile)
  {
  }

  /** Next keeps a valid index valid, and when the list does not fit in one
      window it always moves the window. */
  lemma NextKeepsIndexValid(n: nat, index: nat, mobile: bool)
    requires ValidIndex(n, index, mobile)
    ensures ValidIndex(n, NextIndex(n, index, mobile), mobile)
    ensures n > PerView(mobile) ==> NextIndex(n, index, mobile) != index
  {
    var w := PerView(mobile);
    if n > w {
      ModInRange(index + w, n);
    }
  }

  /** The window after Next continues exactly where the current one ended:
      its k-th card is the (W+k)-th card after the current start, going
      round the list. */
  lemma {:induction false} NextWindowContinues<T>(items: seq<T>, index: nat, mobile: bool)
    requires |items| > PerView(mobile) && index < |items|
    ensures forall k | 0 <= k < PerView(mobile) ::
      VisibleWindow(items, NextIndex(|items|, index, mobile), mobile)[k]
        == items[(index + PerView(mobile) + k) % |items|]
  {
    var n := |items|;
    var w := PerView(mobile);
    var next := NextIndex(n, index, mobile);
    ModInRange(index + w, n);
    WindowIsRotation(items, next, mobile);
    forall k | 0 <= k < w
      ensures VisibleWindow(items, next, mobile)[k] == items[(index + w + k) % n]
    {
      ModInRange(next + k, n);
      ModBelowThree(index + w + k, n);
    }
  }

  lemma ModBelowThree(a: int, n: int)
    requires 0 < n && 0 <= a < 3 * n
    ensures a % n == if a < n then a else if a < 2 * n then a - n else a - 2 * n
  {
    var q := a / n;
    assert a == q * n + a % n;
    assert 0 <= a % n < n;
    assert 0 <= q <= 2;
  }

  // ---------------------------------------------------------------------
  // Loading an API result into a carousel

  const JustArrivedLimit: nat := 6
  const JustBakedLimit: nat := 8

  /** The image rule of the load effect: absolute and rooted paths are
      kept, anything else gets the public base path glued on in front. */
  function HomeImage(publicUrl: string, image: string): (r: string)
    ensures StartsWith(image, "http") || StartsWith(image, "/") ==> r == image
    ensures !(StartsWith(image, "http") || StartsWith(image, "/")) ==> r == publicUrl + image
  {
    if StartsWith(image, "http") || StartsWith(image, "/") then image else publicUrl + image
  }

  /** The load effect: a non-empty API result replaces the list with its
      first `limit` products, images fixed; an empty one leaves the
      previous list as it was. */
  function LoadCarousel(previous: seq<Product>, fromApi: seq<Product>, limit: nat, publicUrl: string): (r: seq<Product>)
    ensures |fromApi| == 0 ==> r == previous
    ensures |fromApi| > 0 ==> |r| == (if |fromApi| < limit then |fromApi| else limit)
    ensures |fromApi| > 0 ==> forall i | 0 <= i < |r| ::
      r[i] == fromApi[i].(image := HomeImage(publicUrl, fromApi[i].image))
  {
    if |fromApi| > 0 then
      var formatted := seq(|fromApi|, i requires 0 <= i < |fromApi| =>
        fromApi[i].(image := HomeImage(publicUrl, fromApi[i].image)));
      Slice(formatted, 0, limit)
    else previous
  }

  /** The just-arrived carousel keeps at most six products. */
  function LoadJustArrived(previous: seq<Product>, fromApi: seq<Product>, publicUrl: string): (r: seq<Product>)
    ensures |fromApi| == 0 ==> r == previous
    ensures |fromApi| > 0 ==> |r| == (if |fromApi| < 6 then |fromApi| else 6)
    ensures |fromApi| > 0 ==> forall i | 0 <= i < |r| ::
      r[i] == fromApi[i].(image := HomeImage(publicUrl, fromApi[i].image))
  {
    LoadCarousel(previous, fromApi, JustArrivedLimit, publicUrl)
  }

  /** The just-baked carousel keeps at most eight products. */
  function LoadJustBaked(previous: seq<Product>, fromApi: seq<Product>, publicUrl: string): (r: seq<Product>)
    ensures |fromApi| == 0 ==> r == previous
    ensures |fromApi| > 0 ==> |r| == (if |fromApi| < 8 then |fromApi| else 8)
    ensures |fromApi| > 0 ==> forall i | 0 <= i < |r| ::
      r[i] == fromApi[i].(image := HomeImage(publicUrl, fromApi[i].image))
  {
    LoadCarousel(previous, fromApi, JustBakedLimit, publicUrl)
  }

  /** With a rooted public base path every loaded image is absolute or
      rooted, and loading the loaded list again changes nothing. */
  lemma LoadedImagesRooted(fromApi: seq<Product>, limit: nat, publicUrl: string)
    requires StartsWith(publicUrl, "/")
    requires |fromApi| > 0 && limit > 0
    ensures forall i | 0 <= i < |LoadCarousel([], fromApi, limit, publicUrl)| ::
      var image := LoadCarousel([], fromApi, limit, publicUrl)[i].image;
      StartsWith(image, "http") || StartsWith(image, "/")
    ensures var loaded := LoadCarousel([], fromApi, limit, publicUrl);
      LoadCarousel([], loaded, limit, publicUrl) == loaded
  {
    var loaded := LoadCarousel([], fromApi, limit, publicUrl);
    forall i | 0 <= i < |loaded|
      ensures StartsWith(loaded[i].image, "http") || StartsWith(loaded[i].image, "/")
    {
      var image := fromApi[i].image;
      if !(StartsWith(image, "http") || StartsWith(image, "/")) {
        StartsWithAppend(publicUrl, image, "/");
      }
    }
    var again := LoadCarousel([], loaded, limit, publicUrl);
    assert |again| == |loaded|;
    forall i | 0 <= i < |loaded| ensures again[i] == loaded[i] {
    }
  }

  // ---------------------------------------------------------------------
  // Cart quantity and the purchase control

  /** An entry of the cart as the home page reads it. */
  datatype CartItem = CartItem(id: string, quantity: int)

  /** `getProductQuantity`: the quantity of the first cart entry with the
      id, or 0 when there is none. */
  function ProductQuantity(cart: seq<CartItem>, id: string): (r: int)
    ensures (forall i | 0 <= i < |cart| :: cart[i].id != id) ==> r == 0
    ensures forall i | 0 <= i < |cart| ::
      (cart[i].id == id && forall j | 0 <= j < i :: cart[j].id != id) ==> r == cart[i].quantity
    decreases |cart|
  {
    if cart == [] then 0
    else if cart[0].id == id then cart[0].quantity
    else
      var r := ProductQuantity(cart[1..], id);
      assert forall i | 1 <= i < |cart| :: cart[i] == cart[1..][i - 1];
      r
  }

  /** `handleQuantityChange`: the quantity handed to the cart's
      `updateQuantity`; a request at or below zero is sent as exactly 0. */
  function QuantityToSend(newQuantity: int): (r: nat)
    ensures newQuantity > 0 ==> r == newQuantity
    ensures newQuantity <= 0 ==> r == 0
  {
    if newQuantity <= 0 then 0 else newQuantity
  }

  /** The control at the foot of a product card. */
  datatype PurchaseControl = SoldOut | QuantitySelector(quantity: int) | AddToCart

  /** The card's control, chosen in order: sold out when `inStock` is
      explicitly false, the selector when the cart holds a positive
      quantity, otherwise Add to Cart. `inCart` is the cart's `isInCart`. */
  function ChooseControl(inStock: Option<bool>, inCart: bool, cart: seq<CartItem>, id: string): (r: PurchaseControl)
    ensures r.SoldOut? <==> inStock == Some(false)
    ensures r.QuantitySelector? <==> inStock != Some(false) && inCart && ProductQuantity(cart, id) > 0
    ensures r.QuantitySelector? ==> r.quantity == ProductQuantity(cart, id) && r.quantity > 0
  {
    if inStock == Some(false) then SoldOut
    else if inCart && ProductQuantity(cart, id) > 0 then QuantitySelector(ProductQuantity(cart, id))
    else AddToCart
  }

  /** The selector's minus button never sends a negative quantity, and on a
      quantity of one it sends 0, which asks the cart to drop the entry; a
      sold-out product never shows the selector even when it is in the cart. */
  lemma SelectorButtons(inStock: Option<bool>, inCart: bool, cart: seq<CartItem>, id: string)
    ensures ChooseControl(inStock, inCart, cart, id).QuantitySelector? ==>
      var q := ChooseControl(inStock, inCart, cart, id).quantity;
      QuantityToSend(q - 1) == q - 1 && QuantityToSend(q + 1) == q + 1
    ensures ChooseControl(inStock, inCart, cart, id) == QuantitySelector(1) ==>
      QuantityToSend(1 - 1) == 0
    ensures inStock == Some(false) ==> !ChooseControl(inStock, inCart, cart, id).QuantitySelector?
  {
  }

  // ---------------------------------------------------------------------
  // Star rating

  datatype Star = Full | Half | Empty

  /** JavaScript's `x % 1 >= 0.5`: the remainder keeps the sign of `x`. */
  predicate HasHalfStar(x: real) {
    x - Trunc(x) as real >= 0.5
  }

  /** Star `i` is full: `i < Math.floor(rating)`. A missing rating is NaN,
      for which every comparison is false. */
  predicate FullAt(rating: Option<real>, i: int) {
    rating.Some? && i < rating.value.Floor
  }

  /** Star `i` is the half star: `i === Math.floor(rating) && hasHalfStar`. */
  predicate HalfAt(rating: Option<real>, i: int) {
    rating.Some? && i == rating.value.Floor && HasHalfStar(rating.value)
  }

  /** The row of stars `renderStars` draws for a rating. */
  predicate StarRow(rating: Option<real>, stars: seq<Star>) {
    && |stars| == 5
    && (forall i | 0 <= i < 5 :: stars[i] == Full <==> FullAt(rating, i))
    && (forall i | 0 <= i < 5 :: stars[i] == Half <==> HalfAt(rating, i))
  }

  /** `renderStars` */
  method RenderStars(rating: Option<real>) returns (stars: seq<Star>)
    ensures StarRow(rating, stars)
  {
    stars := [];
    var i := 0;
    while i < 5
      invariant 0 <= i <= 5 && |stars| == i
      invariant forall j | 0 <= j < i :: stars[j] == Full <==> FullAt(rating, j)
      invariant forall j | 0 <= j < i :: stars[j] == Half <==> HalfAt(rating, j)
    {
      if FullAt(rating, i) {
        stars := stars + [Full];
      } else if HalfAt(rating, i) {
        stars := stars + [Half];
      } else {
        stars := stars + [Empty];
      }
      i := i + 1;
    }
  }

  /** The number of full stars: `Math.floor(rating)` clamped to 0..5. */
  function FullCount(rating: Option<real>): (r: int)
    ensures 0 <= r <= 5
  {
    if rating.None? || rating.value.Floor < 0 then 0
    else if rating.value.Floor > 5 then 5
    else rating.value.Floor
  }

  /** A rating's row has exactly five stars; the full ones come first and
      number `floor(rating)` clamped to 0..5; at most one half star
      follows them, and only when the rating is below 5 with a fractional
      part of at least one half. A negative rating never has a half star. */
  lemma StarRowCounts(rating: Option<real>, stars: seq<Star>)
    requires StarRow(rating, stars)
    ensures |Filter(stars, s => s == Full)| == FullCount(rating)
    ensures forall i, j | 0 <= i < j < 5 :: stars[j] == Full ==> stars[i] == Full
    ensures |Filter(stars, s => s == Half)| <= 1
    ensures |Filter(stars, s => s == Half)| == 1 <==>
      rating.Some? && 0 <= rating.value.Floor < 5 && HasHalfStar(rating.value)
    ensures rating.Some? && rating.value < 0.0 ==> |Filter(stars, s => s == Half)| == 0
  {
    FilterPrefixCount(stars, s => s == Full, FullCount(rating));
    var f := if rating.Some? then rating.value.Floor else -1;
    FilterAtMostOne(stars, s => s == Half, f);
    if rating.Some? && rating.value < 0.0 {
      assert !HasHalfStar(rating.value);
    }
  }
}

=== FILE: image_utils.dfy ===
/** The image URL normaliser: maps whatever the backend stores in a
    product's `image` field to a URL the hosted front end can serve. The
    deployment's public base path (`PUBLIC_URL`, "" when unset) is a
    parameter. */
module ImageUtils {
  import opened Wrappers
  import opened Strings
  import opened Catalog

  const FallbackImage: string := "/bakery-icon-logo.png"

  /** An absolute URL that does not point at the development backend. */
  predicate IsExternal(url: string) {
    StartsWith(url, "http") && !Contains(url, "localhost")
  }

  /** `getImageUrl`: seven rules, the first that applies wins. An empty
      input stands for `undefined`, `null` and "" alike. */
  function GetImageUrl(publicUrl: string, imageUrl: string): (r: string)
    ensures imageUrl == "" ==> r == publicUrl + FallbackImage
    ensures imageUrl != "" && IsExternal(imageUrl) ==> r == imageUrl
    ensures imageUrl != "" && publicUrl != "" && StartsWith(imageUrl, publicUrl) ==> r == imageUrl
    ensures imageUrl != "" && !IsExternal(imageUrl) && !(publicUrl != "" && StartsWith(imageUrl, publicUrl)) ==>
      && (Contains(imageUrl, "localhost") ==> r == publicUrl + "/" + SplitLast(imageUrl, "/"))
      && (!Contains(imageUrl, "localhost") && Contains(imageUrl, "/media/") ==>
            r == publicUrl + "/" + SplitLast(imageUrl, "/media/"))
      && (!Contains(imageUrl, "localhost") && !Contains(imageUrl, "/media/") && StartsWith(imageUrl, "/") ==>
            r == publicUrl + imageUrl)
      && (!Contains(imageUrl, "localhost") && !Contains(imageUrl, "/media/") && !StartsWith(imageUrl, "/") ==>
            r == publicUrl + "/" + imageUrl)
    // every rewritten URL is served from the public base path
    ensures r != imageUrl ==> StartsWith(r, publicUrl)
  {
    if imageUrl == "" then
      publicUrl + FallbackImage
    else if IsExternal(imageUrl) then
      imageUrl
    else if publicUrl != "" && StartsWith(imageUrl, publicUrl) then
      imageUrl
    else if Contains(imageUrl, "localhost") then
      publicUrl + "/" + SplitLast(imageUrl, "/")
    else if Contains(imageUrl, "/media/") then
      publicUrl + "/" + SplitLast(imageUrl, "/media/")
    else if StartsWith(imageUrl, "/") then
      publicUrl + imageUrl
    else
      publicUrl + "/" + imageUrl
  }

  /** With a non-empty public base path the normaliser is idempotent, as its
      documentation claims: every rewritten URL starts with the base path,
      and rule 3 returns such a URL unchanged. */
  lemma {:induction false} GetImageUrlIdempotent(publicUrl: string, imageUrl: string)
    requires publicUrl != ""
    ensures GetImageUrl(publicUrl, GetImageUrl(publicUrl, imageUrl)) == GetImageUrl(publicUrl, imageUrl)
  {
    var once := GetImageUrl(publicUrl, imageUrl);
    if once != imageUrl {
      assert StartsWith(once, publicUrl);
      assert once != "";
    } else if imageUrl == "" {
      assert false;
    }
  }

  /** `p` does not occur in `s` because no position where it would fit
      holds its first character. */
  lemma NotContainsByFirstChar(s: string, p: string)
    requires |p| > 0
    requires forall i | 0 <= i <= |s| - |p| :: s[i] != p[0]
    ensures !Contains(s, p)
  {
    forall i | 0 <= i <= |s| - |p| ensures !OccursAt(s, p, i) {
      assert s[i..i + |p|][0] == s[i];
    }
  }

  lemma FirstCallWithoutBase()
    ensures GetImageUrl("", "media/x.png") == "/media/x.png"
  {
    var s := "media/x.png";
    assert s[..4][0] != "http"[0];
    NotContainsByFirstChar(s, "localhost");
    NotContainsByFirstChar(s, "/media/");
  }

  lemma MediaPathSplit()
    ensures SplitLast("/media/x.png", "/media/") == "x.png"
  {
    var t := "/media/x.png";
    assert t[..7] == "/media/";
    assert IndexOf(t, "/media/") == Some(0);
    assert t[7..] == "x.png";
    NotContainsByFirstChar("x.png", "/media/");
  }

  lemma MediaPathShape()
    ensures !IsExternal("/media/x.png")
    ensures !Contains("/media/x.png", "localhost")
    ensures Contains("/media/x.png", "/media/")
  {
    var t := "/media/x.png";
    assert t[..4][0] != "http"[0];
    NotContainsByFirstChar(t, "localhost");
    assert OccursAt(t, "/media/", 0);
  }

  lemma SecondCallWithoutBase(t: string)
    requires t == "/media/x.png"
    ensures GetImageUrl("", t) == "/x.png"
  {
    MediaPathShape();
    MediaPathSplit();
    var piece := SplitLast(t, "/media/");
    assert GetImageUrl("", t) == "" + "/" + piece;
    RootedFile(piece);
  }

  lemma RootedFile(piece: string)
    requires piece == "x.png"
    ensures "" + "/" + piece == "/x.png"
  {
  }

  /** Without a public base path the claim fails: a relative media path
      gains a leading slash on the first call, and the second call then
      strips the media folder. */
  lemma GetImageUrlNotIdempotentWithoutBase()
    ensures GetImageUrl("", GetImageUrl("", "media/x.png")) != GetImageUrl("", "media/x.png")
  {
    FirstCallWithoutBase();
    SecondCallWithoutBase("/media/x.png");
  }

  /** `split('/media/').pop()` is not "the text after the last /media/":
      JavaScript splits at non-overlapping occurrences from the left, and
      "/media/" overlaps itself at the slash. */
  lemma MediaSplitIsLeftmostGreedy()
    ensures SplitLast("a/media/media/b", "/media/") == "media/b"
    ensures OccursAt("a/media/media/b", "/media/", 7)
  {
    GreedySplit("a/media/media/b", "/media/");
    GreedySecondOccurrence("a/media/media/b");
  }

  lemma GreedySplit(s: string, sep: string)
    requires s == "a/media/media/b" && sep == "/media/"
    ensures SplitLast(s, sep) == "media/b"
  {
    GreedyFirstSplit(s);
    var rest := s[8..];
    assert SplitLast(s, sep) == SplitLast(rest, sep);
    GreedyLastPiece(rest);
  }

  lemma GreedyFirstSplit(s: string)
    requires s == "a/media/media/b"
    ensures IndexOf(s, "/media/") == Some(1)
    ensures s[8..] == "media/b"
  {
    assert s[..7][0] != "/media/"[0];
    assert s[1..][..7] == "/media/";
    assert IndexOf(s[1..], "/media/") == Some(0);
  }

  lemma GreedyLastPiece(t: string)
    requires t == "media/b"
    ensures SplitLast(t, "/media/") == t
  {
    NotContainsByFirstChar(t, "/media/");
  }

  lemma GreedySecondOccurrence(s: string)
    requires s == "a/media/media/b"
    ensures OccursAt(s, "/media/", 7)
  {
    assert s[7..14] == "/media/";
  }

  /** `formatProductImage`: a missing product is passed through; otherwise
      only the `image` field is replaced by its normalised form. */
  function FormatProductImage(publicUrl: string, product: Option<Product>): (r: Option<Product>)
    ensures product.None? <==> r.None?
    ensures product.Some? ==> r.value.(image := product.value.image) == product.value
    ensures product.Some? ==> r.value.image == GetImageUrl(publicUrl, product.value.image)
  {
    match product
    case None => None
    case Some(p) => Some(p.(image := GetImageUrl(publicUrl, p.image)))
  }

  /** `formatProductsImages`: a non-array body is returned as it is; an
      array keeps its length and order and every product changes only in
      its `image` field. */
  function FormatProductsImages(publicUrl: string, data: Payload): (r: Payload)
    ensures !data.List? ==> r == data
    ensures data.List? ==> r.List? && |r.items| == |data.items|
    ensures data.List? ==> forall i | 0 <= i < |data.items| ::
      && r.items[i].(image := data.items[i].image) == data.items[i]
      && r.items[i].image == GetImageUrl(publicUrl, data.items[i].image)
  {
    match data
    case List(items) =>
      List(seq(|items|, i requires 0 <= i < |items| => items[i].(image := GetImageUrl(publicUrl, items[i].image))))
    case _ => data
  }

  /** Formatting an already formatted list changes nothing when the public
      base path is set. */
  lemma FormatProductsImagesIdempotent(publicUrl: string, data: Payload)
    requires publicUrl != ""
    ensures FormatProductsImages(publicUrl, FormatProductsImages(publicUrl, data)) == FormatProductsImages(publicUrl, data)
  {
    var once := FormatProductsImages(publicUrl, data);
    if data.List? {
      var twice := FormatProductsImages(publicUrl, once);
      forall i | 0 <= i < |once.items| ensures twice.items[i] == once.items[i] {
        GetImageUrlIdempotent(publicUrl, data.items[i].image);
      }
    }
  }
}

=== FILE: numbers.dfy ===
/** JavaScript number conversions used by the views. */
module JsNumbers {

  /** `x` truncated towards zero, as `parseInt` does to a number written in
      plain decimal notation (and `Math.trunc` in general). */
  function Trunc(x: real): (r: int)
    ensures x >= 0.0 ==> 0.0 <= x - r as real < 1.0
    ensures x < 0.0 ==> -1.0 < x - r as real <= 0.0
  {
    if x >= 0.0 then x.Floor else -((-x).Floor)
  }
}

=== FILE: product_management.dfy ===
/** The admin product editor: the search box over the product table, the
    feature list and specification map of the edit form, pre-population of
    the form from a product, and the validation and number coercion done
    when the form is saved. The REST calls are the requests of `Api`; their
    outcomes are parameters. */
module ProductManagement {
  import opened Wrappers
  import opened Strings
  import opened Seqs
  import opened Catalog
  import opened JsNumbers
  import Api

  // ---------------------------------------------------------------------
  // Search

  /** The search predicate of the product table: a blank query keeps every
      product; otherwise the lower-cased query, untrimmed, must occur in the
      lower-cased name, category or short description. */
  predicate SearchMatches(query: string, product: Product)
    ensures Blank(query) ==> SearchMatches(query, product)
    // the query is not trimmed: a non-blank query longer than every field matches nothing
    ensures SearchMatches(query, product) && !Blank(query) ==>
      |query| <= |product.name| || |query| <= |product.category| || |query| <= |product.shortDescription|
  {
    Blank(query)
    || Contains(ToLower(product.name), ToLower(query))
    || Contains(ToLower(product.category), ToLower(query))
    || Contains(ToLower(product.shortDescription), ToLower(query))
  }

  /** The search predicate as the callback handed to `filter`. */
  function Matcher(query: string): Product -> bool {
    p => SearchMatches(query, p)
  }

  /** `filteredProducts`: the products the search keeps, in table order. */
  function FilterProducts(products: seq<Product>, query: string): (r: seq<Product>)
    ensures forall i | 0 <= i < |r| :: r[i] in products && SearchMatches(query, r[i])
    ensures forall i | 0 <= i < |products| :: SearchMatches(query, products[i]) ==> products[i] in r
    ensures IsSubsequence(r, products)
    ensures forall x :: multiset(r)[x] == if SearchMatches(query, x) then multiset(products)[x] else 0
  {
    FilterIsSubsequence(products, Matcher(query));
    FilterMultiset(products, Matcher(query));
    Filter(products, Matcher(query))
  }

  /** A blank or whitespace-only query, the one whose `trim()` is "", shows
      the whole table in order. */
  lemma BlankSearchKeepsAll(products: seq<Product>, query: string)
    requires Trim(query) == ""
    ensures FilterProducts(products, query) == products
  {
    TrimEmptyIffBlank(query);
    FilterAll(products, Matcher(query));
  }

  /** The search ignores the case of the query: a query and its lower-cased
      form show the same products. */
  lemma SearchIgnoresQueryCase(products: seq<Product>, query: string)
    ensures FilterProducts(products, ToLower(query)) == FilterProducts(products, query)
  {
    ToLowerIdempotent(query);
    ToLowerKeepsBlank(query);
    forall i | 0 <= i < |products|
      ensures Matcher(ToLower(query))(products[i]) == Matcher(query)(products[i])
    {
    }
    FilterCongruent(products, Matcher(ToLower(query)), Matcher(query));
  }

  // ---------------------------------------------------------------------
  // Features

  /** `handleAddFeature`: a blank input does nothing; otherwise its trimmed
      text goes to the end of the list and the input is cleared. Returns the
      new list and the new input. */
  function AddFeature(features: seq<string>, input: string): (r: (seq<string>, string))
    ensures Blank(input) ==> r == (features, input)
    ensures !Blank(input) ==> r.0 == features + [Trim(input)] && r.1 == ""
    ensures !Blank(input) ==> Trim(input) != ""
  {
    TrimEmptyIffBlank(input);
    if Trim(input) != [] then (features + [Trim(input)], "") else (features, input)
  }

  /** `handleRemoveFeature`: the list without position `index`; an index
      outside the list removes nothing. */
  function RemoveFeature(features: seq<string>, index: int): (r: seq<string>)
    ensures !(0 <= index < |features|) ==> r == features
    ensures 0 <= index < |features| ==>
      && |r| == |features| - 1
      && (forall i | 0 <= i < index :: r[i] == features[i])
      && (forall i | index < i < |features| :: r[i - 1] == features[i])
  {
    if 0 <= index < |features| then features[..index] + features[index + 1..] else features
  }

  /** Removing the feature just added restores the list, and adding never
      disturbs the entries already there, even when the new one repeats
      one of them. */
  lemma RemoveUndoesAdd(features: seq<string>, input: string)
    requires !Blank(input)
    ensures RemoveFeature(AddFeature(features, input).0, |features|) == features
    ensures forall i | 0 <= i < |features| :: AddFeature(features, input).0[i] == features[i]
    ensures |AddFeature(features, input).0| == |features| + 1
  {
    var added := AddFeature(features, input).0;
    assert added[..|features|] == features;
  }

  // ---------------------------------------------------------------------
  // Specifications

  /** The specification part of the form: the map and the two inputs. */
  datatype SpecForm = SpecForm(specs: map<string, string>, key: string, value: string)

  /** `handleAddSpec`: both inputs must be non-blank; the trimmed key then
      maps to the trimmed value, replacing any earlier value, and both
      inputs are cleared. */
  function AddSpec(form: SpecForm): (r: SpecForm)
    ensures Blank(form.key) || Blank(form.value) ==> r == form
    ensures !Blank(form.key) && !Blank(form.value) ==>
      && r.specs == form.specs[Trim(form.key) := Trim(form.value)]
      && r.key == "" && r.value == ""
  {
    TrimEmptyIffBlank(form.key);
    TrimEmptyIffBlank(form.value);
    if Trim(form.key) != [] && Trim(form.value) != [] then
      SpecForm(form.specs[Trim(form.key) := Trim(form.value)], "", "")
    else form
  }

  /** `handleRemoveSpec`: the entry for `key` is gone and every other entry
      is kept; removing an absent key changes nothing. */
  function RemoveSpec(specs: map<string, string>, key: string): (r: map<string, string>)
    ensures key !in r
    ensures forall k | k in specs && k != key :: k in r && r[k] == specs[k]
    ensures r.Keys == specs.Keys - {key}
    ensures key !in specs ==> r == specs
  {
    specs - {key}
  }

  /** A key that differs from an existing one only by surrounding space
      names the same entry: the second value replaces the first, and all
      other entries are untouched. */
  lemma AddSpecOverwrites(specs: map<string, string>, key1: string, value1: string, key2: string, value2: string)
    requires !Blank(key1) && !Blank(value1) && !Blank(value2)
    requires Trim(key1) == Trim(key2)
    ensures var once := AddSpec(SpecForm(specs, key1, value1)).specs;
      var twice := AddSpec(SpecForm(once, key2, value2)).specs;
      && twice == specs[Trim(key1) := Trim(value2)]
      && twice.Keys == once.Keys
  {
    SameTrimNotBlank(key1, key2);
    MapOverwrite(specs, Trim(key1), Trim(value1), Trim(value2));
  }

  lemma SameTrimNotBlank(key1: string, key2: string)
    requires !Blank(key1) && Trim(key1) == Trim(key2)
    ensures !Blank(key2)
  {
    TrimEmptyIffBlank(key1);
    TrimEmptyIffBlank(key2);
  }

  lemma MapOverwrite(m: map<string, string>, k: string, v1: string, v2: string)
    ensures m[k := v1][k := v2] == m[k := v2]
    ensures m[k := v1][k := v2].Keys == m[k := v1].Keys
  {
  }

  /** Adding a new key and then removing it restores the map. */
  lemma RemoveUndoesAddSpec(specs: map<string, string>, key: string, value: string)
    requires !Blank(key) && !Blank(value)
    requires Trim(key) !in specs
    ensures RemoveSpec(AddSpec(SpecForm(specs, key, value)).specs, Trim(key)) == specs
  {
  }

  // ---------------------------------------------------------------------
  // The edit form

  /** A price box: "" or a number. Number inputs store `parseFloat(v) || 0`,
      so a box the user has typed in always holds a number. */
  datatype PriceBox = Empty | Number(amount: real)

  /** The form state. Discount, rating and reviews always hold numbers. */
  datatype FormData = FormData(
    name: string,
    category: string,
    originalPrice: PriceBox,
    price: PriceBox,
    discount: real,
    rating: real,
    reviews: real,
    image: string,
    shortDescription: string,
    fullDescription: string,
    features: seq<string>,
    specifications: map<string, string>,
    featured: bool,
    productType: string,
    inStock: bool,
    freshnessTag: string,
    isFresh: bool)

  const DefaultCategory: string := "Cakes"
  const DefaultProductType: string := "regular"

  /** `handleCreate`: the blank form. */
  function NewForm(): (r: FormData)
    ensures r.name == "" && r.price == Empty && r.originalPrice == Empty && r.image == ""
    ensures r.category == DefaultCategory && r.productType == DefaultProductType
    ensures r.inStock && !r.featured && !r.isFresh
    ensures r.features == [] && r.specifications == map[]
    ensures r.discount == 0.0 && r.rating == 0.0 && r.reviews == 0.0
    ensures r.shortDescription == "" && r.fullDescription == "" && r.freshnessTag == ""
  {
    FormData("", DefaultCategory, Empty, Empty, 0.0, 0.0, 0.0, "", "", "", [], map[],
             false, DefaultProductType, true, "", false)
  }

  /** `x || ''` for a price. */
  function PriceBoxOf(x: Option<real>): (r: PriceBox)
    ensures r.Number? <==> x.Some? && x.value != 0.0
    ensures r.Number? ==> r.amount == x.value
  {
    if x.Some? && x.value != 0.0 then Number(x.value) else Empty
  }

  /** `handleEdit`: the form pre-populated from a product. Missing strings
      are "", the category and type fall back to their defaults, missing
      numbers to 0, and `inStock` to true only when it is absent. The
      features and specifications are fresh values: editing the form never
      alters the product. */
  function EditForm(p: Product): (r: FormData)
    ensures r.name == p.name && r.image == p.image
    ensures r.category == (if p.category != "" then p.category else DefaultCategory)
    ensures r.productType == (if p.productType != "" then p.productType else DefaultProductType)
    ensures r.price == PriceBoxOf(p.price) && r.originalPrice == PriceBoxOf(p.originalPrice)
    ensures r.discount == p.discount.GetOr(0.0) && r.rating == p.rating.GetOr(0.0)
    ensures r.reviews == p.reviews.GetOr(0.0)
    ensures r.inStock == (p.inStock.None? || p.inStock.value)
    ensures p.inStock == Some(false) ==> !r.inStock
    ensures r.featured == (p.featured == Some(true)) && r.isFresh == (p.isFresh == Some(true))
    ensures r.features == p.features.GetOr([]) && r.specifications == p.specifications.GetOr(map[])
    ensures r.shortDescription == p.shortDescription && r.fullDescription == p.fullDescription
    ensures r.freshnessTag == p.freshnessTag
  {
    FormData(
      p.name,
      if p.category != "" then p.category else DefaultCategory,
      PriceBoxOf(p.originalPrice),
      PriceBoxOf(p.price),
      p.discount.GetOr(0.0),
      p.rating.GetOr(0.0),
      p.reviews.GetOr(0.0),
      p.image,
      p.shortDescription,
      p.fullDescription,
      p.features.GetOr([]),
      p.specifications.GetOr(map[]),
      p.featured == Some(true),
      if p.productType != "" then p.productType else DefaultProductType,
      p.inStock.None? || p.inStock.value,
      p.freshnessTag,
      p.isFresh == Some(true))
  }

  /** The number inputs of the form. */
  datatype NumberField = OriginalPriceField | PriceField | DiscountField | RatingField | ReviewsField

  /** `handleInputChange` on a number input: `parseFloat(value) || 0`, with
      the parse as a parameter (None is NaN). Only the named field changes. */
  function ChangeNumber(form: FormData, field: NumberField, parsed: Option<real>): (r: FormData)
    ensures var v := if parsed.Some? then parsed.value else 0.0;
      match field
      case OriginalPriceField => r == form.(originalPrice := Number(v))
      case PriceField => r == form.(price := Number(v))
      case DiscountField => r == form.(discount := v)
      case RatingField => r == form.(rating := v)
      case ReviewsField => r == form.(reviews := v)
  {
    var v := parsed.GetOr(0.0);
    match field
    case OriginalPriceField => form.(originalPrice := Number(v))
    case PriceField => form.(price := Number(v))
    case DiscountField => form.(discount := v)
    case RatingField => form.(rating := v)
    case ReviewsField => form.(reviews := v)
  }

  // ---------------------------------------------------------------------
  // Saving

  const RequiredFieldsMessage: string := "Please fill in all required fields (Name, Category, Price, Image)"
  const SaveFailed: string := "Failed to save product"

  /** A price box is truthy: a non-zero number. */
  predicate Filled(box: PriceBox) {
    box.Number? && box.amount != 0.0
  }

  /** The validation gate of `handleSave`. */
  predicate RequiredFieldsPresent(form: FormData) {
    form.name != "" && form.category != "" && Filled(form.price) && form.image != ""
  }

  /** What `handleSave` sends: the form with its numbers coerced. */
  datatype SavedProduct = SavedProduct(
    name: string,
    category: string,
    originalPrice: real,
    price: real,
    discount: real,
    rating: real,
    reviews: int,
    image: string,
    shortDescription: string,
    fullDescription: string,
    features: seq<string>,
    specifications: map<string, string>,
    featured: bool,
    productType: string,
    inStock: bool,
    freshnessTag: string,
    isFresh: bool)

  /** The coercion of `handleSave`: the original price falls back to the
      price when it is empty or 0, reviews are truncated to an integer, and
      every other field is copied. Discount and rating are numbers already,
      so their `|| 0` fallback leaves them as they are. */
  function Coerce(form: FormData): (r: SavedProduct)
    requires Filled(form.price)
    ensures r.price == form.price.amount && r.price != 0.0
    ensures Filled(form.originalPrice) ==> r.originalPrice == form.originalPrice.amount
    ensures !Filled(form.originalPrice) ==> r.originalPrice == form.price.amount
    ensures r.originalPrice != 0.0
    ensures r.discount == form.discount && r.rating == form.rating && r.reviews == Trunc(form.reviews)
    ensures r.name == form.name && r.category == form.category && r.image == form.image
    ensures r.features == form.features && r.specifications == form.specifications
    ensures r.inStock == form.inStock && r.productType == form.productType
    ensures r.shortDescription == form.shortDescription && r.fullDescription == form.fullDescription
    ensures r.featured == form.featured && r.freshnessTag == form.freshnessTag && r.isFresh == form.isFresh
  {
    SavedProduct(
      form.name,
      form.category,
      if Filled(form.originalPrice) then form.originalPrice.amount else form.price.amount,
      form.price.amount,
      form.discount,
      form.rating,
      Trunc(form.reviews),
      form.image,
      form.shortDescription,
      form.fullDescription,
      form.features,
      form.specifications,
      form.featured,
      form.productType,
      form.inStock,
      form.freshnessTag,
      form.isFresh)
  }

  /** The first step of `handleSave`: either the aggregated error with no
      request, or the one request to send. */
  datatype SaveStep = Rejected(message: string) | Send(request: Api.Request<SavedProduct>)

  /** `handleSave` up to the request: an update of the selected product, or
      a create when none is selected. */
  function Save(form: FormData, selected: Option<Product>): (r: SaveStep)
    ensures r.Rejected? <==> !RequiredFieldsPresent(form)
    ensures r.Rejected? ==> r.message == RequiredFieldsMessage
    ensures r.Send? ==> r.request.body == Some(Coerce(form))
    ensures r.Send? ==> (r.request.verb == Api.PUT <==> selected.Some?)
    ensures r.Send? && selected.Some? ==> r.request == Api.UpdateRequest(selected.value.id, Coerce(form))
    ensures r.Send? && selected.None? ==> r.request == Api.CreateRequest(Coerce(form))
  {
    if !RequiredFieldsPresent(form) then Rejected(RequiredFieldsMessage)
    else if selected.Some? then Send(Api.UpdateRequest(selected.value.id, Coerce(form)))
    else Send(Api.CreateRequest(Coerce(form)))
  }

  /** A price box that has been typed in holds a number, and a price that
      could not be parsed is stored as 0, which the gate rejects. */
  lemma UnparsablePriceIsRejected(form: FormData, selected: Option<Product>)
    ensures ChangeNumber(form, PriceField, None).price == Number(0.0)
    ensures Save(ChangeNumber(form, PriceField, None), selected) == Rejected(RequiredFieldsMessage)
    ensures Save(NewForm(), selected).Rejected?
  {
  }

  /** The editor's state around a save: `saving`, `error` and the selected
      product (the open modal). */
  datatype EditorState = EditorState(saving: bool, error: Option<string>, selected: Option<Product>)

  /** The editor after `handleSave` finishes. A rejected form keeps the modal
      open with the aggregated error; a request that succeeded closes it and
      clears the error; a failed one keeps it open with the message, or the
      fallback when the message is empty. `saving` is cleared in every case. */
  function SettleSave(s: EditorState, step: SaveStep, outcome: Result<()>): (r: EditorState)
    ensures !r.saving
    ensures step.Rejected? ==> r == EditorState(false, Some(RequiredFieldsMessage), s.selected)
    ensures step.Send? && outcome.Success? ==> r.error.None? && r.selected.None?
    ensures step.Send? && outcome.Failure? ==> r.selected == s.selected && r.error.Some? && r.error.value != ""
    ensures step.Send? && outcome.Failure? && outcome.message != "" ==> r.error == Some(outcome.message)
    ensures step.Send? && outcome.Failure? && outcome.message == "" ==> r.error == Some(SaveFailed)
  {
    match step
    case Rejected(_) => EditorState(false, Some(RequiredFieldsMessage), s.selected)
    case Send(_) =>
      match outcome
      case Success(_) => EditorState(false, None, None)
      case Failure(m) => EditorState(false, Some(if m != "" then m else SaveFailed), s.selected)
  }

  /** A product the editor can show in full. */
  predicate Complete(p: Product) {
    && p.name != "" && p.category != "" && p.image != "" && p.productType != ""
    && p.price.Some? && p.price.value != 0.0
    && p.originalPrice.Some? && p.originalPrice.value != 0.0
    && p.discount.Some? && p.rating.Some?
    && p.reviews.Some? && p.reviews.value == p.reviews.value.Floor as real
    && p.features.Some? && p.specifications.Some?
    && p.featured.Some? && p.inStock.Some? && p.isFresh.Some?
  }

  /** Opening a complete product and saving it unchanged sends an update of
      that product with exactly its own values. */
  lemma EditThenSaveRoundTrip(p: Product)
    requires Complete(p)
    ensures var step := Save(EditForm(p), Some(p));
      && step.Send?
      && step.request == Api.UpdateRequest(p.id, Coerce(EditForm(p)))
      && step.request.endpoint == Api.ProductPath(p.id)
      && var saved := step.request.body.value;
      && saved.name == p.name && saved.category == p.category && saved.image == p.image
      && saved.price == p.price.value && saved.originalPrice == p.originalPrice.value
      && saved.discount == p.discount.value && saved.rating == p.rating.value
      && saved.reviews as real == p.reviews.value
      && saved.features == p.features.value && saved.specifications == p.specifications.value
      && saved.featured == p.featured.value && saved.inStock == p.inStock.value
      && saved.isFresh == p.isFresh.value && saved.productType == p.productType
      && saved.shortDescription == p.shortDescription && saved.fullDescription == p.fullDescription
      && saved.freshnessTag == p.freshnessTag
  {
    var form := EditForm(p);
    assert Filled(form.price);
    var r := p.reviews.value;
    if r >= 0.0 {
      assert Trunc(r) == r.Floor;
    } else {
      assert (-r).Floor == -(r.Floor);
    }
  }

  /** `handleDelete`: with no product selected nothing is sent. */
  function DeleteStep(selected: Option<Product>): (r: Option<Api.Request<SavedProduct>>)
    ensures r.None? <==> selected.None?
    ensures r.Some? ==> r.value == Api.DeleteRequest(selected.value.id)
  {
    match selected
    case None => None
    case Some(p) => Some(Api.DeleteRequest(p.id))
  }
}

=== FILE: seqs.dfy ===
/** `Array.prototype.filter` and the order-preservation and counting facts
    the views rely on. */
module Seqs {

  /** `s.filter(p)` */
  function Filter<T>(s: seq<T>, p: T -> bool): (r: seq<T>)
    ensures |r| <= |s|
    ensures forall i | 0 <= i < |r| :: r[i] in s && p(r[i])
    ensures forall i | 0 <= i < |s| :: p(s[i]) ==> s[i] in r
    decreases |s|
  {
    if s == [] then [] else (if p(s[0]) then [s[0]] else []) + Filter(s[1..], p)
  }

  /** Filtering a sequence with a known first element. */
  lemma FilterCons<T>(a: T, t: seq<T>, p: T -> bool)
    ensures Filter([a] + t, p) == (if p(a) then [a] else []) + Filter(t, p)
  {
    assert ([a] + t)[1..] == t;
  }

  /** The filter keeps every element the predicate accepts as many times as
      it occurs, and no other element. */
  lemma {:induction false} FilterMultiset<T>(s: seq<T>, p: T -> bool)
    ensures forall x :: multiset(Filter(s, p))[x] == if p(x) then multiset(s)[x] else 0
    decreases |s|
  {
    if s != [] {
      FilterMultiset(s[1..], p);
      assert s == [s[0]] + s[1..];
      assert multiset(s) == multiset{s[0]} + multiset(s[1..]);
    }
  }

  /** Filtering distributes over concatenation. */
  lemma {:induction false} FilterAppend<T>(a: seq<T>, b: seq<T>, p: T -> bool)
    ensures Filter(a + b, p) == Filter(a, p) + Filter(b, p)
    decreases |a|
  {
    if a != [] {
      FilterAppend(a[1..], b, p);
      assert (a + b)[1..] == a[1..] + b;
    } else {
      assert a + b == b;
    }
  }

  /** The length of the filter is the number of positions whose element the
      predicate accepts. */
  lemma {:induction false} FilterCountsPositions<T>(s: seq<T>, p: T -> bool, positions: set<int>)
    requires forall i :: i in positions <==> 0 <= i < |s| && p(s[i])
    ensures |Filter(s, p)| == |positions|
    decreases |s|
  {
    if s == [] {
      NoPositions(s, p, positions);
    } else {
      var n := |s| - 1;
      var before := set i | 0 <= i < n && p(s[i]);
      PositionsOfPrefix(s, p, before);
      FilterCountsPositions(s[..n], p, before);
      FilterSnoc(s[..n], s[n], p);
      assert s[..n] + [s[n]] == s;
      PositionsStep(s, p, positions, before);
    }
  }

  lemma NoPositions<T>(s: seq<T>, p: T -> bool, positions: set<int>)
    requires s == []
    requires forall i :: i in positions <==> 0 <= i < |s| && p(s[i])
    ensures |positions| == 0
  {
    assert forall i | i in positions :: false;
    assert positions == {};
  }

  lemma PositionsOfPrefix<T>(s: seq<T>, p: T -> bool, before: set<int>)
    requires s != []
    requires before == set i | 0 <= i < |s| - 1 && p(s[i])
    ensures forall i :: i in before <==> 0 <= i < |s[..|s| - 1]| && p(s[..|s| - 1][i])
  {
  }

  lemma FilterSnoc<T>(t: seq<T>, x: T, p: T -> bool)
    ensures |Filter(t + [x], p)| == |Filter(t, p)| + (if p(x) then 1 else 0)
  {
    FilterAppend(t, [x], p);
    assert [x][1..] == [];
  }

  lemma PositionsStep<T>(s: seq<T>, p: T -> bool, positions: set<int>, before: set<int>)
    requires s != []
    requires forall i :: i in positions <==> 0 <= i < |s| && p(s[i])
    requires before == set i | 0 <= i < |s| - 1 && p(s[i])
    ensures |positions| == |before| + (if p(s[|s| - 1]) then 1 else 0)
  {
    var n := |s| - 1;
    if p(s[n]) {
      assert positions == before + {n};
    } else {
      assert positions == before;
    }
  }

  /** `r` can be obtained from `s` by deleting elements, keeping the order. */
  predicate IsSubsequence<T(==)>(r: seq<T>, s: seq<T>)
    decreases |s|
  {
    if r == [] then true
    else if s == [] then false
    else if r[0] == s[0] then IsSubsequence(r[1..], s[1..])
    else IsSubsequence(r, s[1..])
  }

  /** Prepending an element to the longer sequence keeps a subsequence. */
  lemma {:induction false} SubsequenceSkip<T>(r: seq<T>, s: seq<T>, x: T)
    requires IsSubsequence(r, s)
    ensures IsSubsequence(r, [x] + s)
    decreases |s|, 1
  {
    assert ([x] + s)[1..] == s;
    if r != [] && r[0] == x {
      SubsequenceTail(r, s);
    }
  }

  /** Dropping the first element of a subsequence keeps a subsequence. */
  lemma {:induction false} SubsequenceTail<T>(r: seq<T>, s: seq<T>)
    requires r != [] && IsSubsequence(r, s)
    ensures IsSubsequence(r[1..], s)
    decreases |s|, 0
  {
    if r[0] == s[0] {
      SubsequenceSkip(r[1..], s[1..], s[0]);
    } else {
      SubsequenceTail(r, s[1..]);
      SubsequenceSkip(r[1..], s[1..], s[0]);
    }
    assert [s[0]] + s[1..] == s;
  }

  /** Filtering keeps the kept elements in their original order. */
  lemma {:induction false} FilterIsSubsequence<T>(s: seq<T>, p: T -> bool)
    ensures IsSubsequence(Filter(s, p), s)
    decreases |s|
  {
    if s != [] {
      FilterIsSubsequence(s[1..], p);
      var rest := Filter(s[1..], p);
      if p(s[0]) {
        assert Filter(s, p) == [s[0]] + rest;
        assert ([s[0]] + rest)[1..] == rest;
      } else {
        assert Filter(s, p) == rest;
        SubsequenceSkip(rest, s[1..], s[0]);
        assert [s[0]] + s[1..] == s;
      }
    }
  }

  /** A filter whose predicate holds everywhere keeps the whole sequence. */
  lemma {:induction false} FilterAll<T>(s: seq<T>, p: T -> bool)
    requires forall i | 0 <= i < |s| :: p(s[i])
    ensures Filter(s, p) == s
    decreases |s|
  {
    if s != [] {
      FilterAll(s[1..], p);
    }
  }

  /** The filter keeps every element exactly when the predicate holds of
      every element. */
  lemma {:induction false} FilterLengthFull<T>(s: seq<T>, p: T -> bool)
    ensures |Filter(s, p)| == |s| <==> forall i | 0 <= i < |s| :: p(s[i])
    decreases |s|
  {
    if s != [] {
      FilterLengthFull(s[1..], p);
      if forall i | 0 <= i < |s| :: p(s[i]) {
        assert forall i | 0 <= i < |s[1..]| :: p(s[1..][i]) by {
          forall i | 0 <= i < |s[1..]| ensures p(s[1..][i]) {
            assert s[1..][i] == s[i + 1];
          }
        }
      } else if |Filter(s, p)| == |s| {
        assert p(s[0]);
        forall i | 0 <= i < |s| ensures p(s[i]) {
          if i > 0 {
            assert s[i] == s[1..][i - 1];
          }
        }
      }
    }
  }

  /** For two predicates that never hold together on an element, the two
      filters' sizes add up to the size of the filter by `u`, their
      disjunction. */
  lemma {:induction false} FilterDisjointCount<T>(s: seq<T>, p: T -> bool, q: T -> bool, u: T -> bool)
    requires forall i | 0 <= i < |s| :: !(p(s[i]) && q(s[i]))
    requires forall i | 0 <= i < |s| :: u(s[i]) == (p(s[i]) || q(s[i]))
    ensures |Filter(s, p)| + |Filter(s, q)| == |Filter(s, u)|
    decreases |s|
  {
    if s != [] {
      assert forall i | 0 <= i < |s[1..]| :: s[1..][i] == s[i + 1];
      FilterDisjointCount(s[1..], p, q, u);
    }
  }

  /** When the predicate holds exactly on the first `k` positions, the
      filter keeps `k` elements. */
  lemma {:induction false} FilterPrefixCount<T>(s: seq<T>, p: T -> bool, k: int)
    requires 0 <= k <= |s|
    requires forall i | 0 <= i < |s| :: p(s[i]) <==> i < k
    ensures |Filter(s, p)| == k
    decreases |s|
  {
    if s != [] {
      assert forall i | 0 <= i < |s[1..]| :: s[1..][i] == s[i + 1];
      FilterPrefixCount(s[1..], p, if k > 0 then k - 1 else 0);
    }
  }

  /** When the predicate can hold only at position `f`, the filter keeps at
      most one element, and exactly one when it does hold there. */
  lemma {:induction false} FilterAtMostOne<T>(s: seq<T>, p: T -> bool, f: int)
    requires forall i | 0 <= i < |s| :: p(s[i]) ==> i == f
    ensures |Filter(s, p)| <= 1
    ensures |Filter(s, p)| == 1 <==> 0 <= f < |s| && p(s[f])
    decreases |s|
  {
    if s != [] {
      assert forall i | 0 <= i < |s[1..]| :: s[1..][i] == s[i + 1];
      FilterAtMostOne(s[1..], p, f - 1);
      if p(s[0]) {
        assert f == 0;
        assert forall i | 0 <= i < |s[1..]| :: !p(s[1..][i]);
        FilterNone(s[1..], p);
      }
    }
  }

  /** A filter whose predicate holds nowhere keeps nothing. */
  lemma {:induction false} FilterNone<T>(s: seq<T>, p: T -> bool)
    requires forall i | 0 <= i < |s| :: !p(s[i])
    ensures Filter(s, p) == []
    decreases |s|
  {
    if s != [] {
      assert forall i | 0 <= i < |s[1..]| :: s[1..][i] == s[i + 1];
      FilterNone(s[1..], p);
    }
  }

  /** Filters with predicates that agree on every element are equal. */
  lemma {:induction false} FilterCongruent<T>(s: seq<T>, p: T -> bool, q: T -> bool)
    requires forall i | 0 <= i < |s| :: p(s[i]) == q(s[i])
    ensures Filter(s, p) == Filter(s, q)
    decreases |s|
  {
    if s != [] {
      assert forall i | 0 <= i < |s[1..]| :: s[1..][i] == s[i + 1];
      FilterCongruent(s[1..], p, q);
    }
  }
}

=== FILE: strings.dfy ===
/** The JavaScript string primitives the storefront relies on:
    `startsWith`, `includes`, `indexOf`, `split(sep).pop()`, `trim`,
    `toLowerCase` and decimal rendering of a number in a template literal. */
module Strings {
  import opened Wrappers

  /** `s.startsWith(p)` */
  predicate StartsWith(s: string, p: string) {
    |p| <= |s| && s[..|p|] == p
  }

  /** `p` occurs in `s` at position `i`. */
  predicate OccursAt(s: string, p: string, i: int) {
    0 <= i && i + |p| <= |s| && s[i..i + |p|] == p
  }

  /** `s.includes(p)` */
  predicate Contains(s: string, p: string) {
    exists i | 0 <= i <= |s| - |p| :: OccursAt(s, p, i)
  }

  lemma OccursAtShift(s: string, p: string, i: int)
    requires |s| > 0 && 0 <= i
    ensures OccursAt(s[1..], p, i) <==> OccursAt(s, p, i + 1)
  {
    if i + |p| <= |s| - 1 {
      assert s[1..][i..i + |p|] == s[i + 1..i + 1 + |p|];
    }
  }

  lemma StartsWithOccurs(s: string, p: string)
    ensures StartsWith(s, p) <==> OccursAt(s, p, 0)
  {
  }

  /** A prefix of `s` is also a prefix of every extension of `s`. */
  lemma StartsWithAppend(s: string, t: string, p: string)
    requires StartsWith(s, p)
    ensures StartsWith(s + t, p)
  {
    assert (s + t)[..|p|] == s[..|p|];
  }

  /** `s.indexOf(p)`: the first position at which `p` occurs, or None for -1. */
  function IndexOf(s: string, p: string): (r: Option<nat>)
    ensures r.Some? ==> OccursAt(s, p, r.value)
    ensures r.Some? ==> forall j :: 0 <= j < r.value ==> !OccursAt(s, p, j)
    ensures r.None? <==> !Contains(s, p)
    decreases |s|
  {
    if |s| < |p| then None
    else if s[..|p|] == p then Some(0)
    else
      var rest := IndexOf(s[1..], p);
      assert forall j | 0 <= j :: OccursAt(s[1..], p, j) <==> OccursAt(s, p, j + 1) by {
        forall j | 0 <= j ensures OccursAt(s[1..], p, j) <==> OccursAt(s, p, j + 1) {
          OccursAtShift(s, p, j);
        }
      }
      assert !OccursAt(s, p, 0);
      match rest
      case Some(i) =>
        assert forall j | 1 <= j < i + 1 :: !OccursAt(s, p, j) by {
          forall j | 1 <= j < i + 1 ensures !OccursAt(s, p, j) {
            assert !OccursAt(s[1..], p, j - 1);
          }
        }
        Some(i + 1)
      case None =>
        assert forall j | 1 <= j <= |s| - |p| :: !OccursAt(s, p, j) by {
          forall j | 1 <= j <= |s| - |p| ensures !OccursAt(s, p, j) {
            assert !OccursAt(s[1..], p, j - 1);
          }
        }
        None
  }

  /** Where the last piece of `s.split(sep)` begins. JavaScript splits
      greedily from the left at non-overlapping occurrences: the first
      occurrence is a split point, and the search resumes after it. */
  function LastPieceStart(s: string, sep: string): (k: nat)
    requires |sep| > 0
    ensures k <= |s|
    ensures !Contains(s[k..], sep)
    ensures !Contains(s, sep) ==> k == 0
    ensures Contains(s, sep) ==> k >= |sep| && OccursAt(s, sep, k - |sep|)
    decreases |s|
  {
    match IndexOf(s, sep)
    case None => 0
    case Some(i) =>
      var k := LastPieceStart(s[i + |sep|..], sep);
      LastPieceStep(s, sep, i, k);
      i + |sep| + k
  }

  /** The inductive step of `LastPieceStart`: the start found after the
      first split point, shifted back, is a start for the whole string. */
  lemma LastPieceStep(s: string, sep: string, i: nat, k: nat)
    requires |sep| > 0 && OccursAt(s, sep, i)
    requires var rest := s[i + |sep|..];
      && k <= |rest| && !Contains(rest[k..], sep)
      && (!Contains(rest, sep) ==> k == 0)
      && (Contains(rest, sep) ==> k >= |sep| && OccursAt(rest, sep, k - |sep|))
    ensures i + |sep| + k <= |s|
    ensures !Contains(s[i + |sep| + k..], sep)
    ensures OccursAt(s, sep, i + k)
  {
    var j := i + |sep|;
    assert s[j..][k..] == s[j + k..];
    if Contains(s[j..], sep) {
      OccursInSuffix(s, sep, j, k - |sep|);
    }
  }

  /** `s.split(sep).pop()`: the last piece of the split, the text after the
      last split point; the piece never contains `sep`. */
  function SplitLast(s: string, sep: string): (r: string)
    requires |sep| > 0
    ensures |r| <= |s| && r == s[|s| - |r|..]
    ensures !Contains(r, sep)
    ensures !Contains(s, sep) ==> r == s
    ensures Contains(s, sep) ==> OccursAt(s, sep, |s| - |r| - |sep|)
  {
    s[LastPieceStart(s, sep)..]
  }

  /** The split takes the leftmost occurrence first: the last piece of `s`
      is the last piece of what follows its first occurrence of `sep`.
      Together with `SplitLast`'s clause for an absent separator, this fixes
      the piece for every separator, including one that overlaps itself. */
  lemma SplitLastAtLeftmost(s: string, sep: string, i: nat)
    requires |sep| > 0 && OccursAt(s, sep, i)
    requires forall j :: 0 <= j < i ==> !OccursAt(s, sep, j)
    ensures SplitLast(s, sep) == SplitLast(s[i + |sep|..], sep)
  {
    LeftmostIsIndexOf(s, sep, i);
    var j := i + |sep|;
    var k := LastPieceStart(s[j..], sep);
    assert LastPieceStart(s, sep) == j + k;
    assert s[j..][k..] == s[j + k..];
  }

  /** The leftmost occurrence is the one `indexOf` finds. */
  lemma LeftmostIsIndexOf(s: string, sep: string, i: nat)
    requires OccursAt(s, sep, i)
    requires forall j :: 0 <= j < i ==> !OccursAt(s, sep, j)
    ensures IndexOf(s, sep) == Some(i)
  {
    assert i <= |s| - |sep|;
    assert Contains(s, sep);
  }

  /** An occurrence in the suffix `s[k..]` is an occurrence in `s`. */
  lemma OccursInSuffix(s: string, p: string, k: nat, j: int)
    requires k <= |s|
    requires OccursAt(s[k..], p, j)
    ensures OccursAt(s, p, k + j)
  {
    assert s[k..][j..j + |p|] == s[k + j..k + j + |p|];
  }

  /** The ECMAScript WhiteSpace and LineTerminator code points stripped by `trim`. */
  predicate IsSpace(c: char) {
    || ('\t' <= c <= '\r')
    || c == ' '
    || c == '\U{00A0}'
    || c == '\U{1680}'
    || ('\U{2000}' <= c <= '\U{200A}')
    || c == '\U{2028}'
    || c == '\U{2029}'
    || c == '\U{202F}'
    || c == '\U{205F}'
    || c == '\U{3000}'
    || c == '\U{FEFF}'
  }

  /** Every character of `s` is white space (vacuously so for ""). */
  predicate Blank(s: string) {
    forall i | 0 <= i < |s| :: IsSpace(s[i])
  }

  /** `s.trimStart()` */
  function TrimStart(s: string): (r: string)
    ensures |r| <= |s| && r == s[|s| - |r|..]
    ensures Blank(s[..|s| - |r|])
    ensures r == [] || !IsSpace(r[0])
    decreases |s|
  {
    if |s| > 0 && IsSpace(s[0]) then
      var r := TrimStart(s[1..]);
      assert s[..|s| - |r|] == [s[0]] + s[1..][..|s| - 1 - |r|];
      r
    else s
  }

  /** `s.trimEnd()` */
  function TrimEnd(s: string): (r: string)
    ensures |r| <= |s| && r == s[..|r|]
    ensures Blank(s[|r|..])
    ensures r == [] || !IsSpace(r[|r| - 1])
    decreases |s|
  {
    if |s| > 0 && IsSpace(s[|s| - 1]) then
      var r := TrimEnd(s[..|s| - 1]);
      assert s[|r|..] == s[..|s| - 1][|r|..] + [s[|s| - 1]];
      r
    else s
  }

  /** `s.trim()` */
  function Trim(s: string): string {
    TrimEnd(TrimStart(s))
  }

  /** `s.trim()` is empty exactly when `s` is all white space, which is how
      the source's `!s.trim()` tests for a blank input. */
  lemma TrimEmptyIffBlank(s: string)
    ensures Trim(s) == [] <==> Blank(s)
  {
    var t := TrimStart(s);
    if Trim(s) == [] {
      assert t[0..] == t;
      BlankTrimStartIsEmpty(s);
      assert s[..|s|] == s;
    }
  }

  /** What `trimStart` leaves is blank only when it is empty. */
  lemma BlankTrimStartIsEmpty(s: string)
    requires Blank(TrimStart(s))
    ensures TrimStart(s) == []
  {
  }

  /** Trimming leaves no white space at either end. */
  lemma TrimShape(s: string)
    ensures Trim(s) == [] || (!IsSpace(Trim(s)[0]) && !IsSpace(Trim(s)[|Trim(s)| - 1]))
  {
    var t := TrimStart(s);
    var r := TrimEnd(t);
    if r != [] {
      assert r[0] == t[0];
    }
  }

  /** ASCII `toLowerCase` of one character. */
  function LowerChar(c: char): char {
    if 'A' <= c <= 'Z' then (c as int + 32) as char else c
  }

  /** `s.toLowerCase()`, ASCII letters only. */
  function ToLower(s: string): (r: string)
    ensures |r| == |s|
    ensures forall i | 0 <= i < |s| :: r[i] == LowerChar(s[i])
  {
    seq(|s|, i requires 0 <= i < |s| => LowerChar(s[i]))
  }

  /** Lower-casing twice is lower-casing once. */
  lemma ToLowerIdempotent(s: string)
    ensures ToLower(ToLower(s)) == ToLower(s)
  {
    assert forall i | 0 <= i < |s| :: LowerChar(LowerChar(s[i])) == LowerChar(s[i]);
  }

  /** Lower-casing changes no white space, so a string is blank exactly
      when its lower-cased form is. */
  lemma ToLowerKeepsBlank(s: string)
    ensures Blank(ToLower(s)) <==> Blank(s)
  {
    assert forall i | 0 <= i < |s| :: IsSpace(ToLower(s)[i]) <==> IsSpace(s[i]);
  }

  /** One decimal digit. */
  function DigitChar(d: nat): char
    requires d < 10
  {
    ('0' as int + d) as char
  }

  /** Decimal rendering of a non-negative integer, as `${n}` produces it. */
  function NatToString(n: nat): (r: string)
    ensures |r| > 0
    ensures forall i | 0 <= i < |r| :: '0' <= r[i] <= '9'
  {
    if n < 10 then [DigitChar(n)] else NatToString(n / 10) + [DigitChar(n % 10)]
  }
}

=== FILE: time_utils.dfy ===
/** The ordering-hours window: orders are taken from 9:00 AM up to, but
    not including, 10:00 PM local time. The clock is a parameter: the
    time of day as minutes since midnight. */
module TimeUtils {
  import opened Wrappers

  const MinutesPerDay: int := 24 * 60
  const OpeningMinute: int := 9 * 60
  const ClosingMinute: int := 22 * 60

  const OpenMessage: string := "Orders are accepted until 10:00 PM"
  const ClosedPrefix: string :=
    "Ordering is currently closed. Orders are accepted from 9:00 AM to 10:00 PM. Next available time: "
  const TodayOpening: string := "9:00 AM"
  const TomorrowOpening: string := "9:00 AM (tomorrow)"

  /** A clock reading: `getHours()` and `getMinutes()`. */
  predicate ValidClock(hour: int, minute: int) {
    0 <= hour < 24 && 0 <= minute < 60
  }

  /** `hour * 60 + minute`, the minute of the day. */
  function MinuteOfDay(hour: int, minute: int): (m: int)
    requires ValidClock(hour, minute)
    ensures 0 <= m < MinutesPerDay
    ensures m / 60 == hour && m % 60 == minute
  {
    hour * 60 + minute
  }

  /** `isOrderingAllowed`: on any minute of the day, exactly the hours 9
      through 21 are open. */
  predicate IsOrderingAllowed(m: int)
    ensures 0 <= m < MinutesPerDay ==> (IsOrderingAllowed(m) <==> 9 <= m / 60 < 22)
  {
    m >= OpeningMinute && m < ClosingMinute
  }

  /** `getNextOrderingTime`: None stands for the `null` returned while the
      window is open. */
  function NextOrderingTime(m: int): (r: Option<string>)
    ensures r.None? <==> IsOrderingAllowed(m)
    ensures r == Some(TodayOpening) <==> m < OpeningMinute
    ensures r == Some(TomorrowOpening) <==> m >= ClosingMinute
  {
    if m < OpeningMinute then Some(TodayOpening)
    else if m >= ClosingMinute then Some(TomorrowOpening)
    else None
  }

  /** `getOrderingHoursMessage`, with both clock readings taken at the same
      minute. */
  function OrderingHoursMessage(m: int): (r: string)
    ensures IsOrderingAllowed(m) ==> r == OpenMessage
    ensures !IsOrderingAllowed(m) ==> NextOrderingTime(m).Some? && r == ClosedPrefix + NextOrderingTime(m).value
  {
    if IsOrderingAllowed(m) then OpenMessage
    else
      var next := NextOrderingTime(m);
      ClosedPrefix + next.value
  }

  /** The window is half-open: 9:00 is inside and 22:00 is outside, and so
      are the minutes just before each boundary on the other side. */
  lemma WindowIsHalfOpen()
    ensures IsOrderingAllowed(MinuteOfDay(9, 0))
    ensures !IsOrderingAllowed(MinuteOfDay(8, 59))
    ensures IsOrderingAllowed(MinuteOfDay(21, 59))
    ensures !IsOrderingAllowed(MinuteOfDay(22, 0))
  {
  }

  /** Every minute of the day is in exactly one of three phases: before
      opening, open, or after closing; the closed phases name the next
      opening, and the two names differ. */
  lemma ThreePhases(m: int)
    requires 0 <= m < MinutesPerDay
    ensures (m < OpeningMinute) || IsOrderingAllowed(m) || (m >= ClosingMinute)
    ensures !(m < OpeningMinute && IsOrderingAllowed(m))
    ensures !(m >= ClosingMinute && IsOrderingAllowed(m))
    ensures !(m < OpeningMinute && m >= ClosingMinute)
    ensures TodayOpening != TomorrowOpening
  {
    assert |TodayOpening| != |TomorrowOpening|;
  }

  /** The message is the open message exactly when ordering is allowed. */
  lemma MessageAgreesWithWindow(m: int)
    ensures OrderingHoursMessage(m) == OpenMessage <==> IsOrderingAllowed(m)
  {
    if !IsOrderingAllowed(m) {
      var r := OrderingHoursMessage(m);
      assert |r| > |ClosedPrefix|;
      assert |ClosedPrefix| > |OpenMessage|;
    }
  }
}

=== FILE: use_products.dfy ===
/** The product-fetching hooks: each fetch clears the error, issues one
    request, and settles into a state with `loading` cleared and either
    the normalised products or an error message. React's scheduling is
    left out: a fetch is the pair Begin, then Settle with the request's
    outcome. */
module ProductHooks {
  import opened Wrappers
  import opened Strings
  import opened Catalog
  import Api

  /** What a hook's `products` state holds. The looser hooks can store a
      truthy non-array `products` value as it came. */
  datatype Shown = Items(items: seq<Product>) | Opaque(description: string)

  /** State of a list hook: `products`, `loading`, `error` (None is `null`). */
  datatype ListState = ListState(products: Shown, loading: bool, error: Option<string>)

  /** State of `useProduct`: the product (`Nullish` is `null`), `loading`, `error`. */
  datatype ProductState = ProductState(product: Payload, loading: bool, error: Option<string>)

  const FetchFailed: string := "Failed to fetch products"
  const SearchFailed: string := "Failed to search products"
  const ProductFetchFailed: string := "Failed to fetch product"

  /** The message of the error thrown when `data.products` is read from a
      `null` body; the wording is the JavaScript engine's. */
  const NullProductsError: string := "Cannot read properties of null (reading 'products')"

  /** `err.message || fallback` */
  function ErrorText(message: string, fallback: string): (r: string)
    ensures message != "" ==> r == message
    ensures message == "" ==> r == fallback
  {
    if message != "" then message else fallback
  }

  /** The response-shape handling of `useProducts`. Its third test repeats
      the first and can never select anything. */
  function NormalizeStrict(data: Payload): (r: seq<Product>)
    ensures data.List? ==> r == data.items
    ensures data.Record? && data.products.ListField? ==> r == data.products.items
    ensures !data.List? && !(data.Record? && data.products.ListField?) ==> r == []
  {
    if data.List? then data.items
    else if data.Record? && data.products.ListField? then data.products.items
    else if !data.Nullish? && data.List? then assert false; []
    else []
  }

  /** `Array.isArray(data) ? data : data.products || []`, the rule of the
      just-arrived, just-baked and search hooks: a truthy non-array
      `products` passes through, and a `null` body throws. */
  function NormalizeLoose(data: Payload): (r: Result<Shown>)
    ensures r.Failure? <==> data.Nullish?
    ensures data.Record? && data.products.NonList? ==> r == Success(Opaque(data.products.description))
  {
    match data
    case Nullish => Failure(NullProductsError)
    case List(items) => Success(Items(items))
    case Record(products, _) =>
      (match products
       case ListField(items) => Success(Items(items))
       case NonList(description) => Success(Opaque(description))
       case Missing => Success(Items([])))
    case Text(_) => Success(Items([]))
  }

  /** The two rules agree except on a `null` body, which the strict rule
      maps to [] and the loose rule turns into an error, and on a truthy
      non-array `products`, which only the loose rule keeps. */
  lemma StrictAndLooseAgree(data: Payload)
    ensures !data.Nullish? && !(data.Record? && data.products.NonList?) ==>
      NormalizeLoose(data) == Success(Items(NormalizeStrict(data)))
    ensures data.Nullish? ==> NormalizeStrict(data) == [] && NormalizeLoose(data).Failure?
  {
  }

  /** The start of every fetch: `setLoading(true); setError(null)`. */
  function Begin(s: ListState): (r: ListState)
    ensures r.loading && r.error.None? && r.products == s.products
  {
    ListState(s.products, true, None)
  }

  /** The `catch` and `finally` blocks: products reset to [], the message or
      the fallback recorded, loading cleared. */
  function Fail(message: string, fallback: string): (r: ListState)
    ensures !r.loading && r.products == Items([]) && r.error == Some(ErrorText(message, fallback))
  {
    ListState(Items([]), false, Some(ErrorText(message, fallback)))
  }

  /** How `useProducts` settles once its request completes. */
  function SettleStrict(outcome: Result<Payload>): (r: ListState)
    ensures !r.loading
    ensures r.error.None? <==> outcome.Success?
    ensures outcome.Success? ==> r.products == Items(NormalizeStrict(outcome.value))
    ensures outcome.Failure? ==> r.products == Items([]) && r.error == Some(ErrorText(outcome.message, FetchFailed))
  {
    match outcome
    case Success(data) => ListState(Items(NormalizeStrict(data)), false, None)
    case Failure(message) => Fail(message, FetchFailed)
  }

  /** How the just-arrived, just-baked and search hooks settle; a `null`
      body lands in the error path with the engine's message. */
  function SettleLoose(outcome: Result<Payload>, fallback: string): (r: ListState)
    ensures !r.loading
    ensures r.error.None? <==> outcome.Success? && !outcome.value.Nullish?
    ensures r.error.Some? ==> r.products == Items([]) && r.error.value != ""
    ensures outcome.Success? && !outcome.value.Nullish? ==> Success(r.products) == NormalizeLoose(outcome.value)
    ensures outcome.Failure? ==> r.error == Some(ErrorText(outcome.message, fallback))
    ensures outcome.Success? && outcome.value.Nullish? ==> r.error == Some(NullProductsError)
    requires fallback != ""
  {
    match outcome
    case Failure(message) => Fail(message, fallback)
    case Success(data) =>
      match NormalizeLoose(data)
      case Success(shown) => ListState(shown, false, None)
      case Failure(message) => Fail(message, fallback)
  }

  /** One fetch: the request issued, the state while it is in flight, and
      the state once its outcome is known. */
  datatype Fetch = Fetch(request: Api.Request<()>, during: ListState, after: ListState)

  /** One fetch of `useProducts`: a GET of the listing with the filters,
      loading with the error cleared while it is in flight, and once it
      answers either the normalised array or [] with the failure's message. */
  function UseProductsFetch(s: ListState, filters: seq<(string, Api.ParamValue)>,
                            serialize: seq<(string, Api.ParamValue)> -> string,
                            outcome: Result<Payload>): (r: Fetch)
    ensures r.request.verb == Api.GET && r.request.body.None? && StartsWith(r.request.endpoint, "/products")
    ensures r.request == Api.GetAllProducts(filters, serialize)
    ensures r.during.loading && r.during.error.None? && r.during.products == s.products
    ensures !r.after.loading
    ensures r.after.error.None? <==> outcome.Success?
    ensures outcome.Success? ==> r.after.products == Items(NormalizeStrict(outcome.value))
    ensures outcome.Failure? ==>
      r.after.products == Items([]) && r.after.error == Some(ErrorText(outcome.message, FetchFailed))
  {
    Fetch(Api.GetAllProducts(filters, serialize), Begin(s), SettleStrict(outcome))
  }

  /** One fetch of `useJustArrivedProducts`: a GET of its fixed listing query, loading
      with the error cleared while in flight, and once it answers the
      loose shape of the body, or [] with a message on failure or a
      `null` body. */
  function JustArrivedFetch(s: ListState, outcome: Result<Payload>): (r: Fetch)
    ensures r.request.verb == Api.GET && r.request.endpoint == Api.JustArrivedEndpoint && r.request.body.None?
    ensures r.during.loading && r.during.error.None? && r.during.products == s.products
    ensures !r.after.loading
    ensures r.after.error.None? <==> outcome.Success? && !outcome.value.Nullish?
    ensures outcome.Success? && !outcome.value.Nullish? ==> Success(r.after.products) == NormalizeLoose(outcome.value)
    ensures outcome.Failure? ==>
      r.after.products == Items([]) && r.after.error == Some(ErrorText(outcome.message, FetchFailed))
    ensures outcome.Success? && outcome.value.Nullish? ==>
      r.after.products == Items([]) && r.after.error == Some(NullProductsError)
  {
    Fetch(Api.JustArrivedRequest(), Begin(s), SettleLoose(outcome, FetchFailed))
  }

  /** One fetch of `useJustBakedProducts`: a GET of its fixed listing query, loading
      with the error cleared while in flight, and once it answers the
      loose shape of the body, or [] with a message on failure or a
      `null` body. */
  function JustBakedFetch(s: ListState, outcome: Result<Payload>): (r: Fetch)
    ensures r.request.verb == Api.GET && r.request.endpoint == Api.JustBakedEndpoint && r.request.body.None?
    ensures r.during.loading && r.during.error.None? && r.during.products == s.products
    ensures !r.after.loading
    ensures r.after.error.None? <==> outcome.Success? && !outcome.value.Nullish?
    ensures outcome.Success? && !outcome.value.Nullish? ==> Success(r.after.products) == NormalizeLoose(outcome.value)
    ensures outcome.Failure? ==>
      r.after.products == Items([]) && r.after.error == Some(ErrorText(outcome.message, FetchFailed))
    ensures outcome.Success? && outcome.value.Nullish? ==>
      r.after.products == Items([]) && r.after.error == Some(NullProductsError)
  {
    Fetch(Api.JustBakedRequest(), Begin(s), SettleLoose(outcome, FetchFailed))
  }

  /** A fetch's final state depends only on its outcome: the error of an
      earlier fetch never survives, loading is always cleared, and a failed
      fetch leaves an empty list with a non-empty message. */
  lemma FetchForgetsEarlierState(s: ListState, s': ListState, outcome: Result<Payload>)
    ensures JustArrivedFetch(s, outcome).after == JustArrivedFetch(s', outcome).after
    ensures JustBakedFetch(s, outcome).after == JustBakedFetch(s', outcome).after
    ensures UseProductsFetch(s, [], _ => "", outcome).after == UseProductsFetch(s', [], _ => "", outcome).after
    ensures !JustArrivedFetch(s, outcome).after.loading && !UseProductsFetch(s, [], _ => "", outcome).after.loading
    ensures outcome.Failure? ==>
      && JustArrivedFetch(s, outcome).after.products == Items([])
      && JustArrivedFetch(s, outcome).after.error.Some?
      && JustArrivedFetch(s, outcome).after.error.value != ""
  {
  }

  /** `useProductSearch`: a missing or blank query makes no request, empties
      the list and clears loading without touching the error; any other
      query begins a fetch of the search endpoint. The URL encoding of the
      query is a parameter. */
  function StartSearch(s: ListState, query: Option<string>, encode: string -> string): (r: (ListState, Option<Api.Request<()>>))
    ensures (query.None? || Blank(query.value)) ==>
      r.1.None? && r.0 == ListState(Items([]), false, s.error)
    ensures query.Some? && !Blank(query.value) ==>
      r.1 == Some(Api.SearchRequest(encode(query.value))) && r.0 == Begin(s)
  {
    if query.None? || Trim(query.value) == [] then
      TrimEmptyIffBlank(if query.Some? then query.value else "");
      (ListState(Items([]), false, s.error), None)
    else
      TrimEmptyIffBlank(query.value);
      (Begin(s), Some(Api.SearchRequest(encode(query.value))))
  }

  /** A search settles like the other loose hooks, with its own fallback
      message: loading cleared; the loose shape of the body with no error on
      success; [] with the failure's message, or "Failed to search
      products" when it has none, on failure; [] with the engine's message
      on a `null` body. */
  function SettleSearch(outcome: Result<Payload>): (r: ListState)
    ensures !r.loading
    ensures r.error.None? <==> outcome.Success? && !outcome.value.Nullish?
    ensures r.error.Some? ==> r.products == Items([]) && r.error.value != ""
    ensures outcome.Success? && !outcome.value.Nullish? ==> Success(r.products) == NormalizeLoose(outcome.value)
    ensures outcome.Failure? ==> r.error == Some(ErrorText(outcome.message, SearchFailed))
    ensures outcome.Success? && outcome.value.Nullish? ==> r.error == Some(NullProductsError)
  {
    SettleLoose(outcome, SearchFailed)
  }

  /** A search that answers settles exactly as the just-arrived hook would on
      the same outcome, except for the fallback text of a failure without a
      message; whatever the earlier state, no error of an earlier search
      survives a successful one. */
  lemma SearchSettlesLikeOtherHooks(s: ListState, outcome: Result<Payload>)
    ensures SettleSearch(outcome).products == JustArrivedFetch(s, outcome).after.products
    ensures SettleSearch(outcome).loading == JustArrivedFetch(s, outcome).after.loading
    ensures SettleSearch(outcome).error.Some? <==> JustArrivedFetch(s, outcome).after.error.Some?
    ensures !(outcome.Failure? && outcome.message == "") ==>
      SettleSearch(outcome) == JustArrivedFetch(s, outcome).after
    ensures outcome.Failure? && outcome.message == "" ==>
      SettleSearch(outcome).error == Some(SearchFailed) && SearchFailed != FetchFailed
  {
    assert SearchFailed[10] != FetchFailed[10];
  }

  /** `useProduct`: a missing or empty id makes no request and only clears
      loading; the product and any earlier error are left as they were. */
  function StartProduct(s: ProductState, id: Option<string>): (r: (ProductState, Option<Api.Request<()>>))
    ensures (id.None? || id.value == "") ==> r.1.None? && r.0 == s.(loading := false)
    ensures id.Some? && id.value != "" ==>
      r.1 == Some(Api.GetByIdRequest(id.value)) && r.0 == s.(loading := true, error := None)
  {
    if id.None? || id.value == "" then (s.(loading := false), None)
    else (s.(loading := true, error := None), Some(Api.GetByIdRequest(id.value)))
  }

  /** `useProduct` once its request completes: the body becomes the product;
      on error the product is reset to `null`. */
  function SettleProduct(outcome: Result<Payload>): (r: ProductState)
    ensures !r.loading
    ensures r.error.None? <==> outcome.Success?
    ensures outcome.Success? ==> r.product == outcome.value
    ensures outcome.Failure? ==> r.product == Nullish && r.error == Some(ErrorText(outcome.message, ProductFetchFailed))
  {
    match outcome
    case Success(data) => ProductState(data, false, None)
    case Failure(message) => ProductState(Nullish, false, Some(ErrorText(message, ProductFetchFailed)))
  }
}

=== FILE: wrappers.dfy ===
/** Option and Result datatypes used for JavaScript's `undefined`/`null` and
    for thrown errors. */
module Wrappers {

  /** `None` stands for `undefined` or `null`. */
  datatype Option<+T> = None | Some(value: T) {

    /** Returns the value in Some or a default when None (the `??` idiom). */
    function GetOr(default: T): T {
      match this
      case Some(v) => v
      case None => default
    }
  }

  /** A call that either returns a value or throws an error with a message. */
  datatype Result<+R> = Success(value: R) | Failure(message: string) {

    predicate IsFailure() {
      Failure?
    }
  }
}
